=== FILE: README.md ===
# squid convention engine, modelled in Dafny

squid builds an HTTP application's route table from the layout of a directory tree.
At startup it walks the application root and classifies every file by the marker it
holds: `+route.ts`, `+mw.ts` or `+init.ts`. It derives an HTTP path from where each
file sits under the root and orders the records by depth. It then mounts the
application: a `GET /static/*` route first, then the init hooks in manifest order,
then every route module's handlers, each with the middleware whose HTTP path is a
string prefix of the route's.

This project models that engine, which lives in `index.ts` (classes `SquidFile` and
`Squid`) and `src/util.ts` (`walkDir`). The model is a set of pure functions over
immutable data, with lemmas that state what the engine guarantees.

| file | module | models |
|---|---|---|
| `strings.dfy` | `Strings` | the JavaScript string operations the engine relies on: `indexOf` (the first occurrence; an empty pattern occurs at 0), `includes`, `startsWith`, `replace` with a string pattern (first occurrence only), `slice` with a negative start, `split` on one character (never empty), and `join` |
| `faults.dfy` | `Faults` | the two failure channels of the source: `Exit` results and thrown exceptions, plus a state-carrying `Effect` for steps that may throw part-way |
| `walk.dfy` | `Walk` | `walkDir` over a directory-tree datatype, and a reference pre-order traversal |
| `squid_file.dfy` | `SquidFiles` | the `SquidFile` constructor and `SquidFile.new` (the HTTP-path derivation) |
| `order.dfy` | `Ordering` | `orderFilesByDepth`, an insertion sort that is stable by construction |
| `manifest.dfy` | `Manifest` | `loadFiles` and `checkForFile`: classification and collection of records |
| `mounting.dfy` | `Mounting` | `walkFilesOfType`, `importMiddlewareByFile`, `mountRoutes`, `loadInit` and `mountStaticFiles` |
| `engine.dfy` | `Engine` | `Squid.new`: the startup sequence |

## Modelling choices

- **Filesystem.** The directory tree is an input datatype. A directory whose `readdir`
  rejects is `Unlistable`. File texts are a map from path to text, and a path missing
  from the map is a file whose read rejects.
- **Module loading.** `import(path)` is a lookup in a map from path to `Module`. The
  module records which handler exports are present, its `mw` array (middleware
  named by strings) and its `init` hook (absent, completing, or rejecting). A path
  missing from the map is an import that rejects.
- **The application.** The Xerus application is the sequence of `Event`s made on it:
  route registrations (method, HTTP path, handler, middleware) and init-hook calls.
- **Paths.** `path.resolve(cwd, root)` is taken as already done: `absDir` is an input.
  `path.join(dir, name)` is `dir + "/" + name`.
- **Exceptions.** A step that may throw returns an `Effect`: the state it leaves
  behind (pushes made before a throw persist) and whether it completed. `walkDir`
  catches exceptions and returns an `Exit` value. The nested `walkDir` call's result
  is ignored. So a throw inside a subdirectory ends only the walk of that
  subdirectory.

Some behaviours of the code are easy to misread; the model keeps them as written:

- Classification uses `path.includes(marker)` on the whole path, not a file-name
  suffix. A path holding several markers gets one record per marker, in the order
  route, middleware, init (`Manifest.Classification`).
- `extension` is the last `.`-separated part of the file name. For a name with no `.`
  it is the whole name, not the empty string (`SquidFiles.SquidFileShape`).
- The startup order is static route, then init hooks, then routes
  (`Engine.StartupPhases`), not init first.
- A *marked* file that cannot be read fails `loadFiles` exactly when it sits directly
  in the root. Deeper down, the failure is swallowed by the nested walk: that
  subdirectory's listing stops at the failing file and the walk carries on with the
  parent's next entry, so a successful result holds exactly the records of the visits
  reached that way (`Manifest.LoadFilesFailure`, `Manifest.TopUnreadableFails`,
  `Manifest.LoadFilesReached`, `Manifest.NestedReadFailureSkipsRest`). A file without a
  marker is never read.
- The HTTP path is cut at the first occurrence of the root name anywhere in the
  absolute path, even inside a longer ancestor directory name. Root `./app` and the
  file `/srv/happy/app/+route.ts` give `/app`, not `/` (`SquidFiles.RootNameInsideAncestor`).
  When the root name does not occur at all, `slice(-1)` keeps the last character and
  the path comes out as `/` (`SquidFiles.DeriveWithoutRoot`); so does a path whose root
  name first occurs inside the file name (`SquidFiles.DeriveWithoutSlashAfterCut`).
- Only the first `/`-separated part of the cut path is dropped. A root naming a nested
  directory, such as `./src/app`, therefore keeps its inner segments: a file directly
  in `src/app` is mounted at `/app`, and one in `src/app/users` at `/app/users`
  (`SquidFiles.NestedRootKeepsInnerSegments`).
- The static handler serves `"./" + absDir + requestPath`. `absDir` is absolute, so
  this path starts with `.//` and is read relative to the working directory. The
  request path keeps its `/static/` segment (`Mounting.StaticTargetOfAbsoluteDir`).
- `checkForFile` would return `Exit.err` when `SquidFile.new` returns one. But
  `SquidFile.new` only ever returns `Exit.ok` or throws, and the caller drops the
  returned value anyway.

## Model

| member | source | states |
|---|---|---|
| `Strings.IndexOf` | index.ts:41 | -1 exactly when the pattern occurs nowhere; otherwise an occurrence with no earlier one |
| `Strings.Includes` | index.ts:146 | true exactly when the pattern occurs somewhere in the string |
| `Strings.ReplaceFirst` | index.ts:40 | a string without the pattern is unchanged; otherwise only the first occurrence is replaced, and the text around it is kept |
| `Strings.SliceFrom` | index.ts:42 | a start inside the string keeps the suffix from there; a negative start counts from the end (-1 keeps the last character); a start past the end gives the empty string; the result is always a suffix |
| `Strings.Split` | index.ts:31 | never empty; one part more than there are separators; no part holds the separator; joining the parts gives back the string |
| `Strings.SplitJoin` | index.ts:43-49 | splitting joined parts that hold no separator gives back the parts (the inverse of `Split`'s round trip) |
| `Strings.Join` | index.ts:49 | the first part is a prefix of the joined string, followed by the separator when there are more parts; `Split` and `SplitJoin` make joining and splitting inverse |
| `Strings.LastPartIsTail` | index.ts:32-34 | the last part holds no separator and is a suffix, preceded by the separator when the string has one; without a separator it is the whole string |
| `Walk.WalkDir` | src/util.ts:6-23 | an unlistable directory fails with its listing error; any other failure is exactly what the callback returned on one of the directory's own entries |
| `Walk.WalkEntries` | src/util.ts:12-18 | a failure of the loop is the callback's own failure on one of the listed entries, never a nested walk's |
| `Walk.TopThrowFails` | src/util.ts:10-21 | the converse of the failure contract: a callback that throws, in every state, on one of the listed entries makes the loop fail |
| `Walk.WalkDirTopThrowFails` | src/util.ts:10-21 | a listable directory whose callback throws on one of its own entries fails to walk |
| `Walk.JoinPathLastPart` | src/util.ts:13 | the joined path (`JoinPath`, `path.join`) ends with the entry's name as its last `/`-separated part |
| `Walk.WalkDirReplaysVisits` | src/util.ts:12-17 | with a callback that does not throw on the visited entries, the walk runs it on exactly the pre-order visits, in listing order, each with `isDir` and the joined path |
| `Walk.WalkEntriesReplaysVisits` | src/util.ts:12-19 | the loop over listed entries completes with `ok` and the state of running the callback over the visits of those entries |
| `Walk.WalkDirReachesVisits` | src/util.ts:10-21 | whatever the callback throws on, the walk leaves the state of running it over the reached visits: pre-order, with each directory's listing cut right after its first throwing visit and the parent carrying on |
| `Walk.WalkEntriesReachesVisits` | src/util.ts:12-19 | the loop form: a throwing entry ends the loop, while a nested walk's throw only ends that nested walk |
| `Walk.ReachedAllWhenNoneFails` | src/util.ts:12-19 | when nothing throws, the reached visits are all the pre-order visits |
| `Walk.WalkFailsOnlyAtTop` | src/util.ts:10-21 | with such a callback the walk completes exactly when the top directory can be listed; failures to list subdirectories never surface |
| `Walk.WalkDirPreserves` | src/util.ts:12-18 | a state property kept by every callback step, completed or thrown, holds after the walk |
| `Walk.VisitCount` | src/util.ts:15-16 | the number of visits equals the number of entries reachable through listable directories |
| `Walk.VisitsUnderDir` | src/util.ts:13 | every visited path starts with the walked directory followed by `/` |
| `Walk.EntryBlock` | src/util.ts:12-17 | the visits of entry k (itself, then its contents) sit between those of the entries before it and those after it |
| `SquidFiles.NewSquidFile` | index.ts:27-36 | the fields given are kept; `depth` counts the `/`-separated parts of the path; the parts hold no `/` and join back to the path; `lastPathPart` is the final part |
| `SquidFiles.SquidFileShape` | index.ts:31-34 | `lastPathPart` is the text after the last `/` (no `/` in it, a suffix preceded by `/`, or the whole path without one), and `extension` the text after the last `.` of it, or the whole file name when it has no `.` |
| `SquidFiles.DeriveHttpPath` | index.ts:40-49 | every derived HTTP path is non-empty and starts with `/` |
| `SquidFiles.NewFromDisk` | index.ts:37-52 | throws the read failure exactly when the file cannot be read; otherwise returns `Exit.ok` (never `Exit.err`) with the file's text, type and derived HTTP path |
| `SquidFiles.RootAltered` | index.ts:40 | a root written `./name` is matched by `name`; a root without `./` is matched as written; otherwise exactly the two characters of the first `./` go, the text before and after it kept (`../app` becomes `.app`) |
| `SquidFiles.DeriveFromFirstOccurrence` | index.ts:40-49 | when the root name first occurs at the start of some segment (possibly running on into later segments), only that segment and the file name are dropped: `/` when no directory lies between them, otherwise `/` and those directories joined by `/` |
| `SquidFiles.DeriveWithoutRoot` | index.ts:41-46 | when the root name occurs nowhere in the path, `slice(-1)` keeps at most the last character and the HTTP path is `/` |
| `SquidFiles.DeriveWithoutSlashAfterCut` | index.ts:42-46 | when the text from the cut onwards holds no `/` (the root name first occurs inside the file name), the HTTP path is `/` |
| `SquidFiles.SplitSegments` | index.ts:43 | a segment, `/` and joined parts split back into the segment followed by the parts |
| `SquidFiles.DeriveUnderRoot` | index.ts:43-49 | a file directly in the root gets `/`; a file in `a/b` below the root gets `/a/b` |
| `SquidFiles.RootNameInsideAncestor` | index.ts:40-43 | a root name found inside an ancestor directory's name cuts the path there, so a file directly in the root is mounted at `/` plus the root name |
| `SquidFiles.NestedRootKeepsInnerSegments` | index.ts:40-49 | for a root `outer/inner`, only `outer` is dropped: a file in `outer/inner/dirs` is mounted at `/inner/dirs` |
| `Ordering.SortBy` | index.ts:123-127 | the result is a permutation of the input, ordered by key |
| `Ordering.SortIsStable` | index.ts:123-127 | records with the same key keep their input order |
| `Ordering.SortedUnique` | index.ts:123-127 | two key-ordered sequences with the same records per key are equal |
| `Ordering.OrderFilesByDepth` | index.ts:122-128 | a permutation of the records, ordered by non-decreasing segment count |
| `Ordering.OrderIsStable` | index.ts:122-128 | records of equal depth keep their discovery order |
| `Ordering.StableSortIsUnique` | index.ts:122-128 | any depth-ordered arrangement that keeps the discovery order within each depth is the one the sort returns |
| `Ordering.Depth` | index.ts:124-125 | the comparator's key is one more than the number of `/` in the path |
| `Ordering.DepthIsRecorded` | index.ts:124-125 | the depth used for sorting is the record's `depth` field |
| `Manifest.CheckForFile` | index.ts:145-153 | a path without the marker is skipped; the check throws exactly when the marker occurs and the file cannot be read, with its read failure and nothing added; otherwise it adds one record of that path and type |
| `Manifest.CheckMarkers` | index.ts:154-156 | the three checks only add records; they throw exactly when the file cannot be read and holds some marker, and then with its read failure and nothing added |
| `Manifest.LoadCallback` | index.ts:141-157 | the walk callback does nothing for a directory and never removes a record |
| `Manifest.MarkersIn` | index.ts:154-156 | a type is listed exactly when its marker occurs in the path; at most three types |
| `Manifest.Classification` | index.ts:141-157 | on a readable path the callback adds nothing for a directory, and otherwise one record per marker the path holds, in the order route, middleware, init |
| `Manifest.UnreadableFile` | index.ts:145-150 | an unreadable file with no marker is skipped; one with a marker throws its read failure before any record of it is added |
| `Manifest.CheckReadable` | index.ts:145-153 | one marker check on a readable file adds one record when the marker occurs, and nothing otherwise |
| `Manifest.ReadableRecords` | index.ts:154-156 | the three checks on a readable file add exactly the records of the markers it holds |
| `Manifest.ChainPasses` | index.ts:154-156 | when the route and middleware checks complete, the outcome is that of the init check |
| `Manifest.MarkerRecords` | index.ts:154-156 | the records of all markers are those of route, middleware and init, in that order |
| `Manifest.RecordsOfAppend` | index.ts:154-156 | the records for two lists of markers are those of each list, back to back |
| `Manifest.LoadFiles` | index.ts:139-162 | an unlistable root fails with its listing error; a result is ordered by depth |
| `Manifest.CallbackKeepsWellFormed` | index.ts:141-157 | every record the callback adds is well formed: its marker occurs in its path, the file is readable, and the record is the one the constructor builds |
| `Manifest.RecordsWellFormed` | index.ts:147-151 | the records built for markers that occur in a readable path are well formed |
| `Manifest.WalkKeepsWellFormed` | index.ts:141-157 | every record collected by the walk is well formed |
| `Manifest.SortKeepsWellFormed` | index.ts:161 | ordering by depth keeps every record well formed |
| `Manifest.LoadFilesWellFormed` | index.ts:139-162 | every record `loadFiles` returns is well formed |
| `Manifest.CallbackStep` | index.ts:141-157 | when a marked file is readable, one callback step completes and adds exactly that visit's records |
| `Manifest.CallbackState` | index.ts:141-157 | one callback step, throwing or not, leaves the earlier records plus that visit's records, which are none for a directory or an unreadable file |
| `Manifest.ReplayCollects` | index.ts:141-157 | running the callback over any visits adds the reference records of those visits, in order |
| `Manifest.CallbackThrows` | index.ts:141-157 | the callback throws exactly on a file that holds a marker and cannot be read |
| `Manifest.LoadFilesReached` | index.ts:139-162 | whatever fails below the root, a successful `loadFiles` returns the records of the reached visits, in walk order, ordered by depth |
| `Manifest.LoadFilesCollects` | index.ts:139-162 | with a listable root and every marked file readable, `loadFiles` returns the records of all visited files, in walk order, ordered by depth |
| `Manifest.LoadFilesFailure` | index.ts:158-160 | `loadFiles` fails exactly when the root cannot be listed or some marked file directly in the root cannot be read; the error is the root's listing failure or such a file's read failure |
| `Manifest.TopUnreadableFails` | index.ts:141-160 | a marked, unreadable file directly in the root makes `loadFiles` fail |
| `Manifest.NestedWalkFails` | src/util.ts:14-16 | an unreadable marked file at the head of a subdirectory ends that subdirectory's walk with nothing collected |
| `Manifest.NestedReadFailureSkipsRest` | src/util.ts:16 | a concrete instance of `Manifest.LoadFilesReached`: a root holding one subdirectory whose first entry is an unreadable marked file gives an empty result, with the rest of that subdirectory skipped, and `loadFiles` still succeeds |
| `Mounting.Import` | index.ts:81 | an import succeeds exactly when the loader knows the path; otherwise it rejects with a load failure for that path |
| `Mounting.FilesOfType` | index.ts:114-121 | a file is kept exactly when it is in the list and has the type |
| `Mounting.WalkFilesOfType` | index.ts:114-121 | a manifest without files of the type changes nothing; a failure is what the callback returned on some file of the type |
| `Mounting.WalkFilesOfTypeRunsFiltered` | index.ts:114-121 | the loop calls back on exactly the files of the type, in list order, and on nothing else |
| `Mounting.FilesOfTypeAppend` | index.ts:114-121 | selecting by type distributes over concatenation, so the selected files keep their order |
| `Mounting.Applies` | index.ts:132 | middleware applies exactly when its HTTP path is no longer than the route's and agrees with it character by character |
| `Mounting.MiddlewareStep` | index.ts:131-135 | an applicable file without a loadable module or without `mw` throws, with the list unchanged and that file's error; otherwise its `mw` is appended if it applies, and nothing if it does not |
| `Mounting.ImportMiddleware` | index.ts:129-138 | an error is the import or `mw` failure of an applicable middleware file; without middleware files the list is empty |
| `Mounting.ImportMiddlewareSpec` | index.ts:129-138 | collecting middleware succeeds exactly when every applicable middleware file loads and exports `mw`, and yields their `mw` arrays concatenated in manifest order |
| `Mounting.MiddlewareWalk` | index.ts:131-136 | the collection loop, from any partial list, completes exactly when every applicable file loads with `mw`, and appends the reference chain |
| `Mounting.RootMiddlewareAppliesEverywhere` | index.ts:132 | middleware at `/` applies to every route whose path starts with `/` |
| `Mounting.PrefixIgnoresSegments` | index.ts:132 | middleware at `/admin` applies to a route at `/administer` |
| `Mounting.DeeperMiddlewareDoesNotApply` | index.ts:132 | middleware never applies to a route whose path is shorter than its own |
| `Mounting.RegistrationsOver` | index.ts:83-97 | every registration is a mount at the file's HTTP path, with the collected middleware and the module's handler for an exported method |
| `Mounting.Registrations` | index.ts:83-97 | every registration mounts an exported handler of the module at the file's HTTP path with the collected middleware; a module without handlers registers nothing |
| `Mounting.RegistrationsSpec` | index.ts:83-97 | a method is registered exactly when the module exports it; registrations come in the order get, post, patch, put, delete; there is one per export, so a module with no handler registers nothing |
| `Mounting.RegistrationsMembers` | index.ts:83-97 | over any list of methods, a method is registered exactly when it is listed and exported |
| `Mounting.RegistrationsRanked` | index.ts:83-97 | methods tested in rank order are registered in rank order |
| `Mounting.RankedCons` | index.ts:83-97 | a mount ranked before every mount of an ordered list keeps the list ordered when put in front |
| `Mounting.RegistrationsCount` | index.ts:83-97 | over methods none of which is listed twice, the number of registrations is the number of listed methods the module exports |
| `Mounting.MountRoute` | index.ts:80-97 | a route module that fails to load fails with its own load failure, before any middleware is imported; any failure leaves the application unchanged and is the route's or an applicable middleware file's |
| `Mounting.MountRoutes` | index.ts:79-99 | a manifest without route files changes nothing; an error is the import failure of some route file or of a middleware file that applies to it |
| `Mounting.MountRoutesSpec` | index.ts:79-99 | mounting succeeds exactly when every route module and its applicable middleware load; it then appends each route's registrations in manifest order |
| `Mounting.MountRoutesWalk` | index.ts:80-98 | the same, for the loop from any partial application and any suffix of the manifest |
| `Mounting.InitStep` | index.ts:101-104 | an init module that fails to load fails with its load failure, with the application unchanged; any failure is that file's load failure, missing `init` or rejected hook |
| `Mounting.LoadInit` | index.ts:100-105 | a manifest without init files changes nothing; an error is the import failure, missing `init` or rejected hook of some init file |
| `Mounting.LoadInitSpec` | index.ts:100-105 | running the init hooks succeeds exactly when every init module loads with a hook that completes; every hook is then called once, in manifest order |
| `Mounting.InitThrowsAfterCall` | index.ts:102-103 | a hook that rejects has already been called with the application when its failure propagates |
| `Mounting.MountStaticFiles` | index.ts:106-110 | exactly one registration is appended: a GET with no middleware, after everything already registered |
| `Mounting.StaticTarget` | index.ts:108 | the served path is `./`, then the directory, then the request path |
| `Mounting.StaticTargetOfAbsoluteDir` | index.ts:107-108 | for an absolute directory the served path starts with `.//` and ends with the request path, `/static/` included |
| `Engine.NewSquid` | index.ts:66-78 | startup returns `Exit.err` exactly when loading the manifest failed, with that error and nothing mounted; a started engine holds the loaded manifest |
| `Engine.StartupPhases` | index.ts:73-77 | a started application holds the static route, then the init-hook calls in manifest order, then the route registrations in manifest order |
| `Engine.StartupCompletes` | index.ts:66-78 | startup completes exactly when the manifest loads, every init hook loads and completes, and every route module and its middleware load |
| `Engine.StartupEndToEnd` | index.ts:66-78 | with a readable tree and loadable modules, the engine starts with the depth-ordered records of the whole tree and the reference application |

## Left out

- Filesystem I/O (`readdir`, `Bun.file`, `file.text()`): replaced by the tree datatype and the map of file texts.
- Dynamic `import` and the code of handlers, middleware and init hooks: replaced by the loader map. What an init hook does to the application is not modelled, only that it was called and whether it completed.
- The Xerus application, `c.file` and `listen`: replaced by the sequence of registrations.
- `path.resolve`, and the normalisation `path.join` performs: `absDir` is an input, and a join is plain concatenation with one `/`.
- Asynchrony: every `await` in the engine is sequential, so the model runs the steps in order.
- `index.test.ts`: a smoke test against a live server.
- The `console.log` after the final `return` of `SquidFile.new`: it never runs.
- The `|| ''` fallbacks in the `SquidFile` constructor: both operands are strings, so they change nothing.
- Walk.VisitCount: states that there are as many visits as reachable entries. It does not state that visited paths are distinct, because two entries may join to the same path.
- JavaScript strings are sequences of UTF-16 code units, while a `string` here is a sequence of Unicode scalar values. No result changes: the separators `/` and `.` and the markers are single code units, so `indexOf`, `includes`, `startsWith` and `split` agree on well-formed text. The only position-dependent operation, `slice(-1)`, is used on a path without the root name, and whichever single character or code unit it keeps, the HTTP path comes out as `/` (`SquidFiles.DeriveWithoutRoot`).
- Strings.Split: only one-character separators are modelled, the only kind the engine uses.

=== FILE: engine.dfy ===
/** `Squid.new` of index.ts: load the manifest, then mount the static route, run the
    init hooks and mount the route modules, in that order, on a fresh application.

    `absDir` is the root already resolved against the working directory; the tree,
    the file contents and the module loader are the environment the engine sees. */
module Engine {
  import opened Faults
  import opened Walk
  import opened SquidFiles
  import opened Ordering
  import opened Manifest
  import opened Mounting

  /** A started engine: the application with everything registered, and the manifest. */
  datatype Squid = Squid(app: seq<Event>, files: seq<SquidFile>)

  /** `Squid.new(root, cwd)`. A manifest that fails to load is returned as `Exit.err`
      before anything is mounted; an exception while running the init hooks or mounting
      routes rejects the call, and the half-built application is lost. */
  function NewSquid(absDir: string, root: string, tree: Listing, contents: map<string, string>,
                    loader: map<string, Module>): (r: Awaited<Result<Squid>>)
    ensures var m := LoadFiles(absDir, root, tree, contents);
      && (r.Returned? && r.value.Err? <==> m.Err?)
      && (m.Err? ==> r == Returned(Err(m.fault)))
      && (r.Returned? && r.value.Ok? ==> m == Ok(r.value.value.files))
  {
    match LoadFiles(absDir, root, tree, contents)
    case Err(f) => Returned(Err(f))
    case Ok(files) =>
      var app := MountStaticFiles([], absDir);
      var inits := LoadInit(app, files, loader);
      if inits.outcome.Fail? then Threw(inits.outcome.fault)
      else
        var routes := MountRoutes(inits.state, files, loader);
        if routes.outcome.Fail? then Threw(routes.outcome.fault)
        else Returned(Ok(Squid(routes.state, files)))
  }

  /** Reference definition of a started application: the static route first, then one
      hook call per init file in manifest order, then every route module's registrations
      in manifest order. */
  function StartedApp(absDir: string, files: seq<SquidFile>, loader: map<string, Module>): seq<Event>
  {
    [Mount(Get, StaticRoute, ServeStatic(absDir), [])] + InitEvents(files) + RouteEvents(files, files, loader)
  }

  /** Phase order: whenever `Squid.new` completes, the application holds exactly the
      static route, then the init hook calls, then the route registrations. So every init
      hook runs before any route module is imported. */
  lemma StartupPhases(absDir: string, root: string, tree: Listing, contents: map<string, string>, loader: map<string, Module>)
    ensures var r := NewSquid(absDir, root, tree, contents, loader);
      r.Returned? && r.value.Ok? ==> r.value.value.app == StartedApp(absDir, r.value.value.files, loader)
  {
    var m := LoadFiles(absDir, root, tree, contents);
    if m.Ok? {
      var app := MountStaticFiles([], absDir);
      LoadInitSpec(app, m.value, loader);
      var inits := LoadInit(app, m.value, loader);
      if inits.outcome.Pass? {
        MountRoutesSpec(inits.state, m.value, loader);
      }
    }
  }

  /** `Squid.new` completes exactly when the manifest loads, every init file loads with a
      hook that completes, and every route file loads together with its middleware. */
  lemma StartupCompletes(absDir: string, root: string, tree: Listing, contents: map<string, string>, loader: map<string, Module>)
    ensures var r := NewSquid(absDir, root, tree, contents, loader);
      var m := LoadFiles(absDir, root, tree, contents);
      r.Returned? && r.value.Ok? <==> m.Ok? && InitsLoadable(m.value, loader) && RoutesLoadable(m.value, loader)
  {
    var m := LoadFiles(absDir, root, tree, contents);
    if m.Ok? {
      var app := MountStaticFiles([], absDir);
      LoadInitSpec(app, m.value, loader);
      var inits := LoadInit(app, m.value, loader);
      MountRoutesSpec(inits.state, m.value, loader);
    }
  }

  /** With every marked file readable and every module loadable, the engine starts with
      the records of the whole tree, ordered by depth, and the reference application. */
  lemma StartupEndToEnd(absDir: string, root: string, tree: Listing, contents: map<string, string>, loader: map<string, Module>)
    requires tree.Listed?
    requires MarkedFilesReadable(ListingVisits(absDir, tree), contents)
    requires var files := OrderFilesByDepth(Collected(ListingVisits(absDir, tree), root, contents));
      InitsLoadable(files, loader) && RoutesLoadable(files, loader)
    ensures var files := OrderFilesByDepth(Collected(ListingVisits(absDir, tree), root, contents));
      NewSquid(absDir, root, tree, contents, loader) == Returned(Ok(Squid(StartedApp(absDir, files, loader), files)))
  {
    LoadFilesCollects(absDir, root, tree, contents);
    StartupCompletes(absDir, root, tree, contents, loader);
    StartupPhases(absDir, root, tree, contents, loader);
  }
}

=== FILE: faults.dfy ===
/** Failures of the engine and the effect type used for steps that may throw.

    The source mixes two failure channels: `Result` values (`Exit.ok` /
    `Exit.err`) and JavaScript exceptions (a rejected `await`). Both are
    represented here explicitly; which channel a failure travels on is decided
    by the operation that produces or catches it. */
module Faults {

  /** What went wrong, named after the collaborator that failed. */
  datatype Fault =
    | ListFailed(dir: string)                  // `readdir` rejected
    | ReadFailed(path: string)                 // `Bun.file(path).text()` rejected
    | LoadFailed(path: string)                 // `import(path)` rejected
    | MissingExport(path: string, name: string) // `module.init(app)` or `...ts.mw` on an absent binding
    | InitThrew(path: string)                  // the module's `init(app)` rejected

  /** Completion of a step: it returned normally, or it failed with a fault. */
  datatype Outcome = Pass | Fail(fault: Fault)

  /** A step that may throw part-way: the state it leaves behind (effects made before
      the throw persist, as pushes into a captured array do) and how it completed. */
  datatype Effect<S> = Effect(state: S, outcome: Outcome)

  /** `Exit.ok(v)` / `Exit.err(e)` of the `bun-err` package. */
  datatype Result<T> = Ok(value: T) | Err(fault: Fault)

  /** What an awaited call produced: the value it returned, or the exception it threw. */
  datatype Awaited<T> = Returned(value: T) | Threw(fault: Fault)
}

=== FILE: manifest.dfy ===
/** `loadFiles` of index.ts: walk the root, classify every file by the marker
    substrings it contains, build one `SquidFile` per marker found, and order the
    records by depth. */
module Manifest {
  import opened Strings
  import opened Faults
  import opened Walk
  import opened SquidFiles
  import opened Ordering

  /** The marker substring that classifies a file as `t`. */
  function Marker(t: FileType): string
  {
    match t
    case Route => "+route.ts"
    case Middleware => "+mw.ts"
    case Init => "+init.ts"
  }

  /** `checkForFile(includes, fileType, files)`: a path containing the marker is read and
      its record pushed. The `Exit.err` it would return for a failed `SquidFile.new` is
      dropped by the caller, so here it leaves the records unchanged and completes
      normally; a thrown read failure propagates. */
  function CheckForFile(path: string, t: FileType, root: string, contents: map<string, string>,
                        files: seq<SquidFile>): (r: Effect<seq<SquidFile>>)
    ensures !Includes(path, Marker(t)) ==> r == Effect(files, Pass)
    ensures r.outcome.Fail? <==> Includes(path, Marker(t)) && path !in contents
    ensures r.outcome.Fail? ==> r == Effect(files, Fail(ReadFailed(path)))
    ensures r.outcome.Pass? && Includes(path, Marker(t)) ==>
      && |r.state| == |files| + 1 && r.state[..|files|] == files
      && r.state[|files|].path == path && r.state[|files|].fileType == t
  {
    if Includes(path, Marker(t)) then
      match NewFromDisk(path, t, root, contents)
      case Threw(f) => Effect(files, Fail(f))
      case Returned(Err(_)) => Effect(files, Pass)
      case Returned(Ok(sf)) => Effect(files + [sf], Pass)
    else Effect(files, Pass)
  }

  /** The `walkDir` callback of `loadFiles`: directories are skipped; a file is checked
      against the markers. */
  function LoadCallback(root: string, contents: map<string, string>): (cb: (seq<SquidFile>, bool, string) -> Effect<seq<SquidFile>>)
    ensures forall files, path :: cb(files, true, path) == Effect(files, Pass)
    ensures forall files, isDir, path :: files <= cb(files, isDir, path).state
  {
    (files: seq<SquidFile>, isDir: bool, path: string) =>
      if isDir then Effect(files, Pass) else CheckMarkers(path, root, contents, files)
  }

  /** The three `checkForFile` calls on one file, route, middleware and init in that order,
      stopping at the first exception. */
  function CheckMarkers(path: string, root: string, contents: map<string, string>, files: seq<SquidFile>): (r: Effect<seq<SquidFile>>)
    ensures files <= r.state
    ensures r.outcome.Fail? <==> path !in contents && MarkersIn(path) != []
    ensures r.outcome.Fail? ==> r == Effect(files, Fail(ReadFailed(path)))
  {
    assert MarkersIn(path) != [] <==> Includes(path, Marker(Route)) || Includes(path, Marker(Middleware)) || Includes(path, Marker(Init)) by {
      var ts := MarkersIn(path);
      assert ts != [] ==> ts[0] in ts;
    }
    var e1 := CheckForFile(path, Route, root, contents, files);
    if e1.outcome.Fail? then e1
    else
      var e2 := CheckForFile(path, Middleware, root, contents, e1.state);
      if e2.outcome.Fail? then e2
      else CheckForFile(path, Init, root, contents, e2.state)
  }

  /** The types whose markers occur in `path`, in checking order. */
  function MarkersIn(path: string): (ts: seq<FileType>)
    ensures forall t :: t in ts <==> Includes(path, Marker(t))
    ensures |ts| <= 3
  {
    var a, b, c := Present(path, Route), Present(path, Middleware), Present(path, Init);
    assert forall t :: t in a + b + c <==> (t in a || t in b || t in c);
    assert forall t :: t in a <==> t == Route && Includes(path, Marker(Route));
    assert forall t :: t in b <==> t == Middleware && Includes(path, Marker(Middleware));
    assert forall t :: t in c <==> t == Init && Includes(path, Marker(Init));
    a + b + c
  }

  /** `[t]` when the marker of `t` occurs in `path`, `[]` otherwise. */
  function Present(path: string, t: FileType): seq<FileType>
  {
    if Includes(path, Marker(t)) then [t] else []
  }

  /** The records of one readable file: one per marker it contains, in checking order. */
  function RecordsOf(path: string, ts: seq<FileType>, root: string, text: string): (rs: seq<SquidFile>)
    ensures |rs| == |ts|
  {
    if ts == [] then []
    else [NewSquidFile(path, text, ts[0], DeriveHttpPath(path, root))] + RecordsOf(path, ts[1..], root, text)
  }

  /** Classification of one readable file: one record per marker substring it contains,
      in the order route, middleware, init. So a file with no marker yields no record and
      a file with several markers yields several. A directory yields nothing. */
  lemma Classification(root: string, contents: map<string, string>, files: seq<SquidFile>, isDir: bool, path: string)
    requires path in contents
    ensures LoadCallback(root, contents)(files, isDir, path)
         == Effect(files + (if isDir then [] else RecordsOf(path, MarkersIn(path), root, contents[path])), Pass)
  {
    if !isDir {
      ReadableRecords(path, root, contents, files);
    } else {
      assert files + [] == files;
    }
  }

  lemma ReadableRecords(path: string, root: string, contents: map<string, string>, files: seq<SquidFile>)
    requires path in contents
    ensures CheckMarkers(path, root, contents, files) == Effect(files + RecordsOf(path, MarkersIn(path), root, contents[path]), Pass)
  {
    var text := contents[path];
    var ra, rb, rc := RecordsOf(path, Present(path, Route), root, text), RecordsOf(path, Present(path, Middleware), root, text), RecordsOf(path, Present(path, Init), root, text);
    CheckReadable(path, Route, root, contents, files);
    CheckReadable(path, Middleware, root, contents, files + ra);
    CheckReadable(path, Init, root, contents, files + ra + rb);
    ChainPasses(path, root, contents, files, files + ra, files + ra + rb);
    MarkerRecords(path, root, text);
    AppendAssoc(files, ra, rb);
    AppendAssoc(files, ra + rb, rc);
  }

  /** When the route and middleware checks complete normally, the chain ends with the init check. */
  lemma ChainPasses(path: string, root: string, contents: map<string, string>, files: seq<SquidFile>, x: seq<SquidFile>, y: seq<SquidFile>)
    requires CheckForFile(path, Route, root, contents, files) == Effect(x, Pass)
    requires CheckForFile(path, Middleware, root, contents, x) == Effect(y, Pass)
    ensures CheckMarkers(path, root, contents, files) == CheckForFile(path, Init, root, contents, y)
  {
  }

  /** The records of all markers are those of each marker in checking order. */
  lemma MarkerRecords(path: string, root: string, text: string)
    ensures RecordsOf(path, Present(path, Route), root, text) + RecordsOf(path, Present(path, Middleware), root, text)
                  + RecordsOf(path, Present(path, Init), root, text)
         == RecordsOf(path, MarkersIn(path), root, text)
  {
    MarkersInParts(path);
    RecordsOfAppend3(path, Present(path, Route), Present(path, Middleware), Present(path, Init), root, text);
  }

  lemma MarkersInParts(path: string)
    ensures MarkersIn(path) == Present(path, Route) + Present(path, Middleware) + Present(path, Init)
  {
  }

  lemma RecordsOfAppend3(path: string, a: seq<FileType>, b: seq<FileType>, c: seq<FileType>, root: string, text: string)
    ensures RecordsOf(path, a + b + c, root, text)
         == RecordsOf(path, a, root, text) + RecordsOf(path, b, root, text) + RecordsOf(path, c, root, text)
  {
    RecordsOfAppend(path, a + b, c, root, text);
    RecordsOfAppend(path, a, b, root, text);
  }

  /** One marker check on a readable file pushes one record when the marker occurs. */
  lemma CheckReadable(path: string, t: FileType, root: string, contents: map<string, string>, files: seq<SquidFile>)
    requires path in contents
    ensures CheckForFile(path, t, root, contents, files)
         == Effect(files + RecordsOf(path, Present(path, t), root, contents[path]), Pass)
  {
    if !Includes(path, Marker(t)) {
      assert files + [] == files;
    } else {
      var text := contents[path];
      var sf := NewSquidFile(path, text, t, DeriveHttpPath(path, root));
      assert NewFromDisk(path, t, root, contents) == Returned(Ok(sf));
      assert Present(path, t) == [t];
      assert RecordsOf(path, [t], root, text) == [sf];
    }
  }

  /** A file that cannot be read is skipped when it contains no marker, and otherwise
      makes the callback throw the read failure before any record of it is pushed. */
  lemma UnreadableFile(root: string, contents: map<string, string>, files: seq<SquidFile>, path: string)
    requires path !in contents
    ensures LoadCallback(root, contents)(files, false, path)
         == if MarkersIn(path) == [] then Effect(files, Pass) else Effect(files, Fail(ReadFailed(path)))
  {
    assert Route in MarkersIn(path) <==> Includes(path, Marker(Route));
    assert Middleware in MarkersIn(path) <==> Includes(path, Marker(Middleware));
    assert Init in MarkersIn(path) <==> Includes(path, Marker(Init));
  }

  lemma {:induction false} RecordsOfAppend(path: string, a: seq<FileType>, b: seq<FileType>, root: string, text: string)
    ensures RecordsOf(path, a + b, root, text) == RecordsOf(path, a, root, text) + RecordsOf(path, b, root, text)
    decreases |a|
  {
    if a != [] {
      assert (a + b)[1..] == a[1..] + b;
      RecordsOfAppend(path, a[1..], b, root, text);
    } else {
      assert a + b == b;
    }
  }

  /** `loadFiles(absDir, root)`: a walk that fails is returned as its error; otherwise the
      collected records, ordered by depth. */
  function LoadFiles(absDir: string, root: string, tree: Listing, contents: map<string, string>): (r: Result<seq<SquidFile>>)
    ensures tree.Unlistable? ==> r == Err(ListFailed(absDir))
    ensures r.Ok? ==> forall i, j :: 0 <= i < j < |r.value| ==> Depth(r.value[i]) <= Depth(r.value[j])
  {
    var w := WalkDir(absDir, tree, LoadCallback(root, contents), []);
    if w.outcome.Fail? then Err(w.outcome.fault) else Ok(OrderFilesByDepth(w.state))
  }

  /** A record as the walk callback builds it: its type's marker occurs in its path, and
      every field is what the constructor derives from the path, the file's text and the
      root. */
  ghost predicate WellFormed(f: SquidFile, root: string, contents: map<string, string>)
  {
    Includes(f.path, Marker(f.fileType)) && f.path in contents
    && f == NewSquidFile(f.path, contents[f.path], f.fileType, DeriveHttpPath(f.path, root))
  }

  ghost predicate AllWellFormed(files: seq<SquidFile>, root: string, contents: map<string, string>)
  {
    forall i :: 0 <= i < |files| ==> WellFormed(files[i], root, contents)
  }

  /** Every record the callback adds is well formed. */
  lemma CallbackKeepsWellFormed(root: string, contents: map<string, string>, files: seq<SquidFile>, isDir: bool, path: string)
    requires AllWellFormed(files, root, contents)
    ensures AllWellFormed(LoadCallback(root, contents)(files, isDir, path).state, root, contents)
  {
    var r := LoadCallback(root, contents)(files, isDir, path);
    if isDir {
    } else if path in contents {
      Classification(root, contents, files, isDir, path);
      var rs := RecordsOf(path, MarkersIn(path), root, contents[path]);
      RecordsWellFormed(path, MarkersIn(path), root, contents);
      assert r.state == files + rs;
      forall i | 0 <= i < |r.state| ensures WellFormed(r.state[i], root, contents) {
        if i >= |files| {
          assert r.state[i] == rs[i - |files|];
        }
      }
    } else {
      UnreadableFile(root, contents, files, path);
    }
  }

  lemma {:induction false} RecordsWellFormed(path: string, ts: seq<FileType>, root: string, contents: map<string, string>)
    requires path in contents
    requires forall t :: t in ts ==> Includes(path, Marker(t))
    ensures AllWellFormed(RecordsOf(path, ts, root, contents[path]), root, contents)
    decreases |ts|
  {
    if ts != [] {
      var text := contents[path];
      var head := NewSquidFile(path, text, ts[0], DeriveHttpPath(path, root));
      RecordsWellFormed(path, ts[1..], root, contents);
      assert WellFormed(head, root, contents) by {
        assert ts[0] in ts;
      }
      WellFormedCons(head, RecordsOf(path, ts[1..], root, text), root, contents);
    }
  }

  lemma WellFormedCons(head: SquidFile, tail: seq<SquidFile>, root: string, contents: map<string, string>)
    requires WellFormed(head, root, contents) && AllWellFormed(tail, root, contents)
    ensures AllWellFormed([head] + tail, root, contents)
  {
    var fs := [head] + tail;
    forall i | 0 <= i < |fs| ensures WellFormed(fs[i], root, contents) {
      if i > 0 {
        assert fs[i] == tail[i - 1];
      }
    }
  }

  /** Every record `loadFiles` returns is well formed: its path holds its type's marker,
      the file is readable, and the record is what the constructor builds from it. */
  lemma LoadFilesWellFormed(absDir: string, root: string, tree: Listing, contents: map<string, string>)
    ensures var r := LoadFiles(absDir, root, tree, contents);
      r.Ok? ==> AllWellFormed(r.value, root, contents)
  {
    var w := WalkDir(absDir, tree, LoadCallback(root, contents), []);
    WalkKeepsWellFormed(absDir, root, tree, contents);
    SortKeepsWellFormed(w.state, root, contents);
  }

  lemma WalkKeepsWellFormed(absDir: string, root: string, tree: Listing, contents: map<string, string>)
    ensures AllWellFormed(WalkDir(absDir, tree, LoadCallback(root, contents), []).state, root, contents)
  {
    var cb := LoadCallback(root, contents);
    var inv := (files: seq<SquidFile>) => AllWellFormed(files, root, contents);
    forall t, d, p | inv(t) ensures inv(cb(t, d, p).state) {
      CallbackKeepsWellFormed(root, contents, t, d, p);
    }
    WalkDirPreserves(absDir, tree, cb, [], inv);
  }

  lemma SortKeepsWellFormed(files: seq<SquidFile>, root: string, contents: map<string, string>)
    requires AllWellFormed(files, root, contents)
    ensures AllWellFormed(OrderFilesByDepth(files), root, contents)
  {
    var sorted := OrderFilesByDepth(files);
    forall i | 0 <= i < |sorted| ensures WellFormed(sorted[i], root, contents) {
      assert sorted[i] in multiset(files);
      var j :| 0 <= j < |files| && files[j] == sorted[i];
    }
  }

  /** The records of one visited file, read or not: none for a directory or an unreadable
      file, and otherwise one per marker the path contains. */
  function VisitRecords(v: Visit, root: string, contents: map<string, string>): seq<SquidFile>
  {
    if v.isDir || v.path !in contents then [] else RecordsOf(v.path, MarkersIn(v.path), root, contents[v.path])
  }

  /** Reference definition of what the walk collects: the records of the visits, in visit order. */
  function Collected(vs: seq<Visit>, root: string, contents: map<string, string>): seq<SquidFile>
  {
    if vs == [] then [] else VisitRecords(vs[0], root, contents) + Collected(vs[1..], root, contents)
  }

  /** Every visited file that holds a marker can be read. */
  ghost predicate MarkedFilesReadable(vs: seq<Visit>, contents: map<string, string>)
  {
    forall v :: v in vs && !v.isDir && MarkersIn(v.path) != [] ==> v.path in contents
  }

  /** On visits whose marked files are all readable, one callback step pushes exactly the
      visit's records and completes normally. */
  lemma CallbackStep(root: string, contents: map<string, string>, files: seq<SquidFile>, v: Visit)
    requires !v.isDir && MarkersIn(v.path) != [] ==> v.path in contents
    ensures LoadCallback(root, contents)(files, v.isDir, v.path) == Effect(files + VisitRecords(v, root, contents), Pass)
  {
    if v.isDir || v.path !in contents {
      assert files + [] == files;
      if !v.isDir {
        UnreadableFile(root, contents, files, v.path);
      }
    } else {
      Classification(root, contents, files, false, v.path);
    }
  }

  /** Whether or not it throws, one callback step leaves the records it had plus the
      visit's records: a step that throws has added nothing, and neither has one on an
      unreadable file. */
  lemma CallbackState(root: string, contents: map<string, string>, files: seq<SquidFile>, v: Visit)
    ensures LoadCallback(root, contents)(files, v.isDir, v.path).state == files + VisitRecords(v, root, contents)
  {
    if v.isDir || v.path !in contents {
      assert files + [] == files;
      if !v.isDir {
        UnreadableFile(root, contents, files, v.path);
      }
    } else {
      Classification(root, contents, files, false, v.path);
    }
  }

  /** Running the callback over any visits, throwing or not, adds the reference records of
      those visits, in order. */
  lemma {:induction false} ReplayCollects(vs: seq<Visit>, root: string, contents: map<string, string>, files: seq<SquidFile>)
    ensures Replay(LoadCallback(root, contents), files, vs) == files + Collected(vs, root, contents)
    decreases |vs|
  {
    if vs == [] {
      assert files + [] == files;
    } else {
      var v := vs[0];
      var x := VisitRecords(v, root, contents);
      CallbackState(root, contents, files, v);
      ReplayCollects(vs[1..], root, contents, files + x);
      AppendAssoc(files, x, Collected(vs[1..], root, contents));
    }
  }

  /** The visits on which the `loadFiles` callback throws: marked files that cannot be read. */
  function LoadThrows(contents: map<string, string>): Visit -> bool
  {
    (v: Visit) => !v.isDir && v.path !in contents && MarkersIn(v.path) != []
  }

  /** The callback throws on a visit exactly when `LoadThrows` picks it out. */
  lemma CallbackThrows(root: string, contents: map<string, string>)
    ensures forall t, d, p :: LoadCallback(root, contents)(t, d, p).outcome.Fail? <==> LoadThrows(contents)(Visit(d, p))
  {
    forall t, d, p ensures LoadCallback(root, contents)(t, d, p).outcome.Fail? <==> LoadThrows(contents)(Visit(d, p)) {
      if !d {
        assert LoadCallback(root, contents)(t, d, p) == CheckMarkers(p, root, contents, t);
      }
    }
  }

  /** Whatever fails below the root, a successful `loadFiles` returns the records of the
      visits the walk reached, in walk order, then ordered by depth. An unreadable marked
      file in a subdirectory thus cuts that subdirectory's listing short, and the walk
      carries on with the parent's next entry. */
  lemma LoadFilesReached(absDir: string, root: string, tree: Listing, contents: map<string, string>)
    ensures var r := LoadFiles(absDir, root, tree, contents);
      r.Ok? ==> r.value == OrderFilesByDepth(Collected(ReachedListing(absDir, tree, LoadThrows(contents)), root, contents))
  {
    var cb := LoadCallback(root, contents);
    CallbackThrows(root, contents);
    WalkDirReachesVisits(absDir, tree, cb, [], LoadThrows(contents));
    ReplayCollects(ReachedListing(absDir, tree, LoadThrows(contents)), root, contents, []);
    assert [] + Collected(ReachedListing(absDir, tree, LoadThrows(contents)), root, contents)
        == Collected(ReachedListing(absDir, tree, LoadThrows(contents)), root, contents);
  }

  /** When every marked file under a listable root can be read, `loadFiles` succeeds with
      the records of all visited files, in walk order, then ordered by depth. */
  lemma LoadFilesCollects(absDir: string, root: string, tree: Listing, contents: map<string, string>)
    requires tree.Listed?
    requires MarkedFilesReadable(ListingVisits(absDir, tree), contents)
    ensures LoadFiles(absDir, root, tree, contents) == Ok(OrderFilesByDepth(Collected(ListingVisits(absDir, tree), root, contents)))
  {
    var cb := LoadCallback(root, contents);
    var vs := ListingVisits(absDir, tree);
    forall s, v | v in vs ensures cb(s, v.isDir, v.path).outcome == Pass {
      CallbackStep(root, contents, s, v);
    }
    WalkDirReplaysVisits(absDir, tree, cb, []);
    WalkFailsOnlyAtTop(absDir, tree, cb, []);
    ReplayCollects(vs, root, contents, []);
    assert [] + Collected(vs, root, contents) == Collected(vs, root, contents);
  }

  /** `loadFiles` fails exactly when the root cannot be listed, or when some file directly
      in the root holds a marker and cannot be read; a failure deeper down never surfaces.
      The error is then the root's listing failure or the read failure of such a file. */
  lemma LoadFilesFailure(absDir: string, root: string, tree: Listing, contents: map<string, string>)
    ensures var r := LoadFiles(absDir, root, tree, contents);
      r.Err? <==> tree.Unlistable? || (tree.Listed? && exists k :: 0 <= k < |tree.entries| && TopFileUnreadable(absDir, tree.entries[k], contents))
    ensures var r := LoadFiles(absDir, root, tree, contents);
      r.Err? ==>
        (tree.Unlistable? && r.fault == ListFailed(absDir))
        || (tree.Listed? && exists k :: 0 <= k < |tree.entries| && TopFileUnreadable(absDir, tree.entries[k], contents)
                                         && r.fault == ReadFailed(JoinPath(absDir, tree.entries[k].name)))
  {
    var cb := LoadCallback(root, contents);
    var w := WalkDir(absDir, tree, cb, []);
    if tree.Listed? {
      var es := tree.entries;
      if w.outcome.Fail? {
        var k, t :| 0 <= k < |es| && cb(t, es[k].Dir?, JoinPath(absDir, es[k].name)) == w;
        var p := JoinPath(absDir, es[k].name);
        if p in contents {
          Classification(root, contents, t, es[k].Dir?, p);
        } else if !es[k].Dir? {
          UnreadableFile(root, contents, t, p);
        }
        assert TopFileUnreadable(absDir, es[k], contents) && w.outcome.fault == ReadFailed(p);
      }
      if exists k :: 0 <= k < |es| && TopFileUnreadable(absDir, es[k], contents) {
        var k :| 0 <= k < |es| && TopFileUnreadable(absDir, es[k], contents);
        TopUnreadableFails(absDir, root, es, contents, k);
      }
    }
  }

  /** `e` is a file directly in `dir` that holds a marker and cannot be read. */
  ghost predicate TopFileUnreadable(dir: string, e: Entry, contents: map<string, string>)
  {
    var p := JoinPath(dir, e.name);
    e.File? && p !in contents && MarkersIn(p) != []
  }

  /** A marked file directly in the root that cannot be read makes `loadFiles` fail: its
      callback throws in every state, and the walk reaches it unless an earlier one throws. */
  lemma TopUnreadableFails(absDir: string, root: string, es: seq<Entry>, contents: map<string, string>, k: nat)
    requires k < |es| && TopFileUnreadable(absDir, es[k], contents)
    ensures LoadFiles(absDir, root, Listed(es), contents).Err?
  {
    var cb := LoadCallback(root, contents);
    var p := JoinPath(absDir, es[k].name);
    forall t ensures cb(t, es[k].Dir?, p).outcome.Fail? {
      UnreadableFile(root, contents, t, p);
    }
    WalkDirTopThrowFails(absDir, es, cb, [], k);
  }

  /** A marked file that cannot be read inside a subdirectory ends the walk of that
      subdirectory: the entries after it are never visited, and `loadFiles` still succeeds. */
  lemma NestedReadFailureSkipsRest(absDir: string, d: string, f: string, rest: seq<Entry>, root: string, contents: map<string, string>)
    requires JoinPath(JoinPath(absDir, d), f) !in contents
    requires MarkersIn(JoinPath(JoinPath(absDir, d), f)) != []
    ensures LoadFiles(absDir, root, Listed([Dir(d, Listed([File(f)] + rest))]), contents) == Ok([])
  {
    var cb := LoadCallback(root, contents);
    var sub := JoinPath(absDir, d);
    var inner := Listed([File(f)] + rest);
    NestedWalkFails(sub, f, rest, root, contents);
    assert cb([], true, sub) == Effect([], Pass);
    assert WalkEntries(absDir, [Dir(d, inner)], cb, []) == WalkEntries(absDir, [], cb, WalkDir(sub, inner, cb, []).state);
    assert WalkDir(absDir, Listed([Dir(d, inner)]), cb, []) == Effect([], Pass);
  }

  lemma NestedWalkFails(sub: string, f: string, rest: seq<Entry>, root: string, contents: map<string, string>)
    requires JoinPath(sub, f) !in contents
    requires MarkersIn(JoinPath(sub, f)) != []
    ensures WalkDir(sub, Listed([File(f)] + rest), LoadCallback(root, contents), []).state == []
  {
    var cb := LoadCallback(root, contents);
    var es := [File(f)] + rest;
    assert es[0] == File(f);
    UnreadableFile(root, contents, [], JoinPath(sub, f));
    assert cb([], false, JoinPath(sub, f)) == Effect([], Fail(ReadFailed(JoinPath(sub, f))));
    assert WalkEntries(sub, es, cb, []) == cb([], false, JoinPath(sub, f));
  }
}

=== FILE: mounting.dfy ===
/** The mounting half of index.ts: walking the manifest by file type, collecting the
    middleware that applies to a route, registering a route module's handlers,
    running init hooks and mounting the static-file handler.

    The Xerus application is modelled by the sequence of registrations made on it,
    in order. A module import is a lookup in a loader map: a path the map lacks is
    a module whose import rejects. */
module Mounting {
  import opened Strings
  import opened Faults
  import opened SquidFiles

  datatype Option<T> = None | Some(value: T)

  /** The handler exports a route module may carry. */
  datatype Method = Get | Post | Patch | Put | Delete

  /** The order in which `mountRoutes` tests the exports. */
  const MethodOrder: seq<Method> := [Get, Post, Patch, Put, Delete]

  /** The `init` export of a module: absent, a hook that completes, or one that rejects. */
  datatype InitHook = NoInit | InitReturns | InitThrows

  /** What the engine reads from an imported module: which handler exports are present
      (truthy), the `mw` array if exported (middleware named by strings), and `init`. */
  datatype Module = Module(handlers: set<Method>, mw: Option<seq<string>>, init: InitHook)

  /** What a registered route runs: the static-file server for a directory, or the
      handler a route module exports for a method. */
  datatype Handler = ServeStatic(dir: string) | Exported(path: string, verb: Method)

  /** One effect on the application: a route registration with its middleware, or the
      call of an init hook with the application. */
  datatype Event =
    | Mount(verb: Method, httpPath: string, handler: Handler, mw: seq<string>)
    | RunInit(path: string)

  /** `await import(path)`. */
  function Import(loader: map<string, Module>, path: string): (r: Result<Module>)
    ensures r.Ok? <==> path in loader
    ensures r.Ok? ==> r.value == loader[path]
    ensures r.Err? ==> r.fault == LoadFailed(path)
  {
    if path in loader then Ok(loader[path]) else Err(LoadFailed(path))
  }

  // ---------------------------------------------------------------------------
  // walkFilesOfType
  // ---------------------------------------------------------------------------

  /** The files of one type, in manifest order. */
  function FilesOfType(files: seq<SquidFile>, t: FileType): (r: seq<SquidFile>)
    ensures forall f :: f in r <==> f in files && f.fileType == t
    ensures |r| <= |files|
  {
    if files == [] then []
    else (if files[0].fileType == t then [files[0]] else []) + FilesOfType(files[1..], t)
  }

  /** Runs `cb` on each of `fs` in order; the first step that throws ends the run. */
  function RunEach<S>(fs: seq<SquidFile>, cb: (S, SquidFile) -> Effect<S>, s: S): Effect<S>
  {
    if fs == [] then Effect(s, Pass)
    else
      var e := cb(s, fs[0]);
      if e.outcome.Fail? then e else RunEach(fs[1..], cb, e.state)
  }

  /** `walkFilesOfType(files, fileType, callback)`: the loop over the whole manifest that
      awaits the callback on each file of the type. */
  function WalkFilesOfType<S(!new)>(files: seq<SquidFile>, t: FileType, cb: (S, SquidFile) -> Effect<S>, s: S): (r: Effect<S>)
    ensures (forall f :: f in files ==> f.fileType != t) ==> r == Effect(s, Pass)
    ensures r.outcome.Fail? ==> exists f, u :: f in files && f.fileType == t && cb(u, f) == r
  {
    if files == [] then Effect(s, Pass)
    else
      assert forall f :: f in files[1..] ==> f in files;
      if files[0].fileType != t then WalkFilesOfType(files[1..], t, cb, s)
      else
        var e := cb(s, files[0]);
        if e.outcome.Fail? then e else WalkFilesOfType(files[1..], t, cb, e.state)
  }

  /** The loop calls back exactly on the files of the type, in manifest order, and on
      nothing else. */
  lemma {:induction false} WalkFilesOfTypeRunsFiltered<S(!new)>(files: seq<SquidFile>, t: FileType, cb: (S, SquidFile) -> Effect<S>, s: S)
    ensures WalkFilesOfType(files, t, cb, s) == RunEach(FilesOfType(files, t), cb, s)
    decreases |files|
  {
    if files != [] {
      var rest := FilesOfType(files[1..], t);
      if files[0].fileType == t {
        assert FilesOfType(files, t) == [files[0]] + rest;
        assert ([files[0]] + rest)[1..] == rest;
        var e := cb(s, files[0]);
        if e.outcome.Pass? {
          WalkFilesOfTypeRunsFiltered(files[1..], t, cb, e.state);
        }
      } else {
        assert FilesOfType(files, t) == rest;
        WalkFilesOfTypeRunsFiltered(files[1..], t, cb, s);
      }
    }
  }

  /** Filtering distributes over concatenation: the files of a type keep their manifest order. */
  lemma {:induction false} FilesOfTypeAppend(a: seq<SquidFile>, b: seq<SquidFile>, t: FileType)
    ensures FilesOfType(a + b, t) == FilesOfType(a, t) + FilesOfType(b, t)
    decreases |a|
  {
    if a == [] {
      assert a + b == b;
    } else {
      assert (a + b)[0] == a[0] && (a + b)[1..] == a[1..] + b;
      FilesOfTypeAppend(a[1..], b, t);
    }
  }

  // ---------------------------------------------------------------------------
  // importMiddlewareByFile
  // ---------------------------------------------------------------------------

  /** A middleware file applies to a route when its HTTP path is a string prefix of the
      route's: no segment boundary is required. */
  predicate Applies(route: SquidFile, mwFile: SquidFile): (b: bool)
    ensures b <==> |mwFile.httpPath| <= |route.httpPath|
                   && forall i :: 0 <= i < |mwFile.httpPath| ==> route.httpPath[i] == mwFile.httpPath[i]
  {
    StartsWith(route.httpPath, mwFile.httpPath)
  }

  /** One step of `importMiddlewareByFile`: an applicable middleware file is imported and
      its `mw` array appended; an import that rejects, or a module without `mw` (spreading
      `undefined` throws), ends the collection with an exception. */
  function MiddlewareStep(route: SquidFile, loader: map<string, Module>, mw: seq<string>, file: SquidFile): (r: Effect<seq<string>>)
    ensures r.outcome.Pass? <==> !Applies(route, file) || (file.path in loader && loader[file.path].mw.Some?)
    ensures r.outcome.Pass? ==> r.state == mw + (if Applies(route, file) then loader[file.path].mw.value else [])
    ensures r.outcome.Fail? ==> r.state == mw && MiddlewareFault(file, r.outcome.fault)
  {
    if !Applies(route, file) then Effect(mw, Pass)
    else match Import(loader, file.path)
      case Err(f) => Effect(mw, Fail(f))
      case Ok(m) =>
        match m.mw
        case None => Effect(mw, Fail(MissingExport(file.path, "mw")))
        case Some(ms) => Effect(mw + ms, Pass)
  }

  /** `importMiddlewareByFile(targetFile, files)`: the exception of any step propagates;
      otherwise the collected middleware. */
  function ImportMiddleware(route: SquidFile, files: seq<SquidFile>, loader: map<string, Module>): (r: Result<seq<string>>)
    ensures r.Err? ==> exists f :: f in files && f.fileType == Middleware && Applies(route, f) && MiddlewareFault(f, r.fault)
    ensures (forall f :: f in files ==> f.fileType != Middleware) ==> r == Ok([])
  {
    var e := WalkFilesOfType(files, Middleware, (mw: seq<string>, f: SquidFile) => MiddlewareStep(route, loader, mw, f), []);
    if e.outcome.Fail? then Err(e.outcome.fault) else Ok(e.state)
  }

  /** `f` is the error of importing middleware file `f`: its import rejected, or it has no `mw`. */
  predicate MiddlewareFault(file: SquidFile, f: Fault)
  {
    f == LoadFailed(file.path) || f == MissingExport(file.path, "mw")
  }

  /** Every applicable middleware file can be imported and exports `mw`. */
  ghost predicate MiddlewareLoadable(route: SquidFile, files: seq<SquidFile>, loader: map<string, Module>)
  {
    forall f :: f in files && f.fileType == Middleware && Applies(route, f) ==> f.path in loader && loader[f.path].mw.Some?
  }

  /** Reference definition: the `mw` arrays of the applicable middleware files, in manifest
      order (shallower files first, since the manifest is ordered by depth). */
  function MiddlewareChain(route: SquidFile, files: seq<SquidFile>, loader: map<string, Module>): seq<string>
  {
    if files == [] then []
    else
      var f := files[0];
      (if f.fileType == Middleware && Applies(route, f) && f.path in loader && loader[f.path].mw.Some?
       then loader[f.path].mw.value else [])
      + MiddlewareChain(route, files[1..], loader)
  }

  /** Collecting middleware succeeds exactly when every applicable middleware file loads
      and exports `mw`, and then yields the reference chain. */
  lemma ImportMiddlewareSpec(route: SquidFile, files: seq<SquidFile>, loader: map<string, Module>)
    ensures ImportMiddleware(route, files, loader).Ok? <==> MiddlewareLoadable(route, files, loader)
    ensures ImportMiddleware(route, files, loader).Ok? ==>
      ImportMiddleware(route, files, loader).value == MiddlewareChain(route, files, loader)
  {
    MiddlewareWalk(route, files, loader, []);
  }

  lemma {:induction false} MiddlewareWalk(route: SquidFile, files: seq<SquidFile>, loader: map<string, Module>, acc: seq<string>)
    ensures var e := WalkFilesOfType(files, Middleware, (mw: seq<string>, f: SquidFile) => MiddlewareStep(route, loader, mw, f), acc);
      && (e.outcome.Pass? <==> MiddlewareLoadable(route, files, loader))
      && (e.outcome.Pass? ==> e.state == acc + MiddlewareChain(route, files, loader))
    decreases |files|
  {
    var cb := (mw: seq<string>, f: SquidFile) => MiddlewareStep(route, loader, mw, f);
    if files == [] {
      assert acc + [] == acc;
    } else {
      var f := files[0];
      var chunk := if f.fileType == Middleware && Applies(route, f) && f.path in loader && loader[f.path].mw.Some?
                   then loader[f.path].mw.value else [];
      assert MiddlewareLoadable(route, files, loader) <==>
        (f.fileType == Middleware && Applies(route, f) ==> f.path in loader && loader[f.path].mw.Some?)
        && MiddlewareLoadable(route, files[1..], loader)
      by {
        assert forall g :: g in files <==> g == f || g in files[1..];
      }
      if f.fileType == Middleware && Applies(route, f) && !(f.path in loader && loader[f.path].mw.Some?) {
        assert WalkFilesOfType(files, Middleware, cb, acc).outcome.Fail?;
      } else {
        var next := if f.fileType == Middleware then cb(acc, f).state else acc;
        assert next == acc + chunk;
        MiddlewareWalk(route, files[1..], loader, next);
        AppendAssoc(acc, chunk, MiddlewareChain(route, files[1..], loader));
      }
    }
  }

  /** Middleware mounted at `/` applies to every route, since every derived HTTP path
      starts with `/`. */
  lemma RootMiddlewareAppliesEverywhere(route: SquidFile, mwFile: SquidFile)
    requires mwFile.httpPath == "/"
    requires |route.httpPath| >= 1 && route.httpPath[0] == '/'
    ensures Applies(route, mwFile)
  {
  }

  /** The prefix test ignores segment boundaries: middleware for `/admin` also applies to
      a route at `/administer`. */
  lemma PrefixIgnoresSegments(route: SquidFile, mwFile: SquidFile)
    requires mwFile.httpPath == "/admin" && route.httpPath == "/administer"
    ensures Applies(route, mwFile)
  {
  }

  /** A middleware file never applies to a route whose path is shorter than its own. */
  lemma DeeperMiddlewareDoesNotApply(route: SquidFile, mwFile: SquidFile)
    requires |route.httpPath| < |mwFile.httpPath|
    ensures !Applies(route, mwFile)
  {
  }

  // ---------------------------------------------------------------------------
  // mountRoutes
  // ---------------------------------------------------------------------------

  /** Position of a method in the order the exports are tested. */
  function MethodRank(m: Method): nat
  {
    match m
    case Get => 0
    case Post => 1
    case Patch => 2
    case Put => 3
    case Delete => 4
  }

  /** The registrations for the methods `ms` that the module exports, in the order of `ms`. */
  function RegistrationsOver(ms: seq<Method>, file: SquidFile, m: Module, mw: seq<string>): (regs: seq<Event>)
    ensures forall e :: e in regs ==>
      && e.Mount? && e.httpPath == file.httpPath && e.mw == mw
      && e.handler == Exported(file.path, e.verb) && e.verb in m.handlers && e.verb in ms
  {
    if ms == [] then []
    else
      var head := if ms[0] in m.handlers then [Mount(ms[0], file.httpPath, Exported(file.path, ms[0]), mw)] else [];
      head + RegistrationsOver(ms[1..], file, m, mw)
  }

  /** What `mountRoutes` registers for one route module: a route per handler export, at the
      file's HTTP path, with the collected middleware. */
  function Registrations(file: SquidFile, m: Module, mw: seq<string>): (regs: seq<Event>)
    ensures forall e :: e in regs ==>
      && e.Mount? && e.httpPath == file.httpPath && e.mw == mw
      && e.handler == Exported(file.path, e.verb) && e.verb in m.handlers
    ensures m.handlers == {} ==> regs == []
  {
    var regs := RegistrationsOver(MethodOrder, file, m, mw);
    assert regs != [] ==> regs[0] in regs;
    regs
  }

  /** A method is registered exactly when the module exports its handler; registrations
      come in the order get, post, patch, put, delete; and there is one per export. */
  lemma RegistrationsSpec(file: SquidFile, m: Module, mw: seq<string>)
    ensures forall meth :: Mount(meth, file.httpPath, Exported(file.path, meth), mw) in Registrations(file, m, mw)
                           <==> meth in m.handlers
    ensures MountsInMethodOrder(Registrations(file, m, mw))
    ensures |Registrations(file, m, mw)| == |m.handlers|
  {
    forall meth ensures meth in MethodOrder {
      match meth
      case Get => assert MethodOrder[0] == Get;
      case Post => assert MethodOrder[1] == Post;
      case Patch => assert MethodOrder[2] == Patch;
      case Put => assert MethodOrder[3] == Put;
      case Delete => assert MethodOrder[4] == Delete;
    }
    RegistrationsMembers(MethodOrder, file, m, mw);
    RegistrationsRanked(MethodOrder, file, m, mw);
    RegistrationsCount(MethodOrder, file, m, mw);
    assert m.handlers * (set meth | meth in MethodOrder) == m.handlers;
  }

  lemma {:induction false} RegistrationsMembers(ms: seq<Method>, file: SquidFile, m: Module, mw: seq<string>)
    ensures forall meth :: Mount(meth, file.httpPath, Exported(file.path, meth), mw) in RegistrationsOver(ms, file, m, mw)
                           <==> meth in m.handlers && meth in ms
    decreases |ms|
  {
    if ms != [] {
      RegistrationsMembers(ms[1..], file, m, mw);
      assert forall meth :: meth in ms <==> meth == ms[0] || meth in ms[1..];
    }
  }

  /** The mounts among `evs` come in strictly increasing method rank. */
  ghost predicate MountsInMethodOrder(evs: seq<Event>)
  {
    forall i, j :: 0 <= i < j < |evs| && evs[i].Mount? && evs[j].Mount? ==> MethodRank(evs[i].verb) < MethodRank(evs[j].verb)
  }

  /** `ms` lists methods in strictly increasing rank. */
  ghost predicate Ranked(ms: seq<Method>)
  {
    forall i, j :: 0 <= i < j < |ms| ==> MethodRank(ms[i]) < MethodRank(ms[j])
  }

  lemma {:induction false} RegistrationsRanked(ms: seq<Method>, file: SquidFile, m: Module, mw: seq<string>)
    requires Ranked(ms)
    ensures MountsInMethodOrder(RegistrationsOver(ms, file, m, mw))
    decreases |ms|
  {
    if ms != [] {
      RegistrationsRanked(ms[1..], file, m, mw);
      var tail := RegistrationsOver(ms[1..], file, m, mw);
      if ms[0] in m.handlers {
        forall x | x in tail ensures x.Mount? && MethodRank(ms[0]) < MethodRank(x.verb) {
          var k :| 0 <= k < |ms[1..]| && ms[1..][k] == x.verb;
          assert ms[k + 1] == x.verb;
        }
        RankedCons(Mount(ms[0], file.httpPath, Exported(file.path, ms[0]), mw), tail);
      } else {
        assert RegistrationsOver(ms, file, m, mw) == tail;
      }
    }
  }

  lemma RankedCons(e: Event, tail: seq<Event>)
    requires e.Mount? && MountsInMethodOrder(tail)
    requires forall x :: x in tail ==> x.Mount? && MethodRank(e.verb) < MethodRank(x.verb)
    ensures MountsInMethodOrder([e] + tail)
  {
    var evs := [e] + tail;
    forall i, j | 0 <= i < j < |evs| && evs[i].Mount? && evs[j].Mount?
      ensures MethodRank(evs[i].verb) < MethodRank(evs[j].verb)
    {
      assert evs[j] == tail[j - 1];
      if i > 0 {
        assert evs[i] == tail[i - 1];
      }
    }
  }

  /** No method is listed twice in `ms`. */
  ghost predicate Distinct(ms: seq<Method>)
  {
    forall i, j :: 0 <= i < j < |ms| ==> ms[i] != ms[j]
  }

  lemma {:induction false} RegistrationsCount(ms: seq<Method>, file: SquidFile, m: Module, mw: seq<string>)
    requires Distinct(ms)
    ensures |RegistrationsOver(ms, file, m, mw)| == |m.handlers * (set meth | meth in ms)|
    decreases |ms|
  {
    if ms == [] {
      assert m.handlers * (set meth | meth in ms) == {};
    } else {
      assert Distinct(ms[1..]) by {
        forall i, j | 0 <= i < j < |ms[1..]| ensures ms[1..][i] != ms[1..][j] {
          assert ms[1..][i] == ms[i + 1] && ms[1..][j] == ms[j + 1];
        }
      }
      RegistrationsCount(ms[1..], file, m, mw);
      var rest := m.handlers * (set meth | meth in ms[1..]);
      assert ms[0] !in ms[1..];
      ExportedStep(ms, m.handlers);
      assert |RegistrationsOver(ms, file, m, mw)|
          == (if ms[0] in m.handlers then 1 else 0) + |RegistrationsOver(ms[1..], file, m, mw)|;
    }
  }

  /** The exported methods among `ms` are its first one, if exported, and those of the rest. */
  lemma ExportedStep(ms: seq<Method>, handlers: set<Method>)
    requires |ms| >= 1 && ms[0] !in ms[1..]
    ensures var rest := handlers * (set meth | meth in ms[1..]);
      |handlers * (set meth | meth in ms)| == (if ms[0] in handlers then 1 else 0) + |rest|
  {
    var rest := handlers * (set meth | meth in ms[1..]);
    assert ms[0] !in rest;
    assert forall meth :: meth in ms <==> meth == ms[0] || meth in ms[1..];
    if ms[0] in handlers {
      assert handlers * (set meth | meth in ms) == rest + {ms[0]};
    } else {
      assert handlers * (set meth | meth in ms) == rest;
    }
  }

  /** The `walkFilesOfType` callback of `mountRoutes`: the route module is imported first,
      then its middleware, and only then are its handlers registered; an exception in
      either import leaves the application as it was. */
  function MountRoute(app: seq<Event>, file: SquidFile, files: seq<SquidFile>, loader: map<string, Module>): (r: Effect<seq<Event>>)
    ensures file.path !in loader ==> r == Effect(app, Fail(LoadFailed(file.path)))
    ensures r.outcome.Fail? ==> r.state == app && RouteFault(file, files, r.outcome.fault)
  {
    match Import(loader, file.path)
    case Err(f) => Effect(app, Fail(f))
    case Ok(m) =>
      match ImportMiddleware(file, files, loader)
      case Err(f) => Effect(app, Fail(f))
      case Ok(mw) => Effect(app + Registrations(file, m, mw), Pass)
  }

  /** `f` is an error mounting route `file` can raise: its own import, or the import of a
      middleware file that applies to it. */
  predicate RouteFault(file: SquidFile, files: seq<SquidFile>, f: Fault)
  {
    f == LoadFailed(file.path)
    || exists g :: g in files && g.fileType == Middleware && Applies(file, g) && MiddlewareFault(g, f)
  }

  /** `mountRoutes(app, files)`. A manifest without route files leaves the application as
      it is; an error is one that mounting some route file raised. */
  function MountRoutes(app: seq<Event>, files: seq<SquidFile>, loader: map<string, Module>): (r: Effect<seq<Event>>)
    ensures (forall f :: f in files ==> f.fileType != Route) ==> r == Effect(app, Pass)
    ensures r.outcome.Fail? ==> exists f :: f in files && f.fileType == Route && RouteFault(f, files, r.outcome.fault)
  {
    WalkFilesOfType(files, Route, (a: seq<Event>, f: SquidFile) => MountRoute(a, f, files, loader), app)
  }

  /** Every route file loads and every middleware file that applies to it loads and exports `mw`. */
  ghost predicate RoutesLoadable(files: seq<SquidFile>, loader: map<string, Module>)
  {
    forall f :: f in files && f.fileType == Route ==> f.path in loader && MiddlewareLoadable(f, files, loader)
  }

  /** Reference definition: the registrations of the route files of `fs`, in manifest
      order, each with the middleware chain computed over the whole manifest `files`. */
  function RouteEvents(fs: seq<SquidFile>, files: seq<SquidFile>, loader: map<string, Module>): seq<Event>
  {
    if fs == [] then []
    else
      var f := fs[0];
      (if f.fileType == Route && f.path in loader
       then Registrations(f, loader[f.path], MiddlewareChain(f, files, loader)) else [])
      + RouteEvents(fs[1..], files, loader)
  }

  /** Mounting the routes succeeds exactly when every route and its middleware load, and
      then appends the reference registrations to the application. */
  lemma MountRoutesSpec(app: seq<Event>, files: seq<SquidFile>, loader: map<string, Module>)
    ensures MountRoutes(app, files, loader).outcome.Pass? <==> RoutesLoadable(files, loader)
    ensures MountRoutes(app, files, loader).outcome.Pass? ==>
      MountRoutes(app, files, loader).state == app + RouteEvents(files, files, loader)
  {
    MountRoutesWalk(app, files, files, loader);
  }

  lemma {:induction false} MountRoutesWalk(app: seq<Event>, fs: seq<SquidFile>, files: seq<SquidFile>, loader: map<string, Module>)
    ensures var e := WalkFilesOfType(fs, Route, (a: seq<Event>, f: SquidFile) => MountRoute(a, f, files, loader), app);
      && (e.outcome.Pass? <==> forall f :: f in fs && f.fileType == Route ==> f.path in loader && MiddlewareLoadable(f, files, loader))
      && (e.outcome.Pass? ==> e.state == app + RouteEvents(fs, files, loader))
    decreases |fs|
  {
    var cb := (a: seq<Event>, f: SquidFile) => MountRoute(a, f, files, loader);
    if fs == [] {
      assert app + [] == app;
    } else {
      var f := fs[0];
      var chunk := if f.fileType == Route && f.path in loader
                   then Registrations(f, loader[f.path], MiddlewareChain(f, files, loader)) else [];
      assert forall g :: g in fs <==> g == f || g in fs[1..];
      if f.fileType == Route {
        ImportMiddlewareSpec(f, files, loader);
      }
      if f.fileType == Route && !(f.path in loader && MiddlewareLoadable(f, files, loader)) {
        assert WalkFilesOfType(fs, Route, cb, app).outcome.Fail?;
      } else {
        var next := if f.fileType == Route then cb(app, f).state else app;
        assert next == app + chunk;
        MountRoutesWalk(next, fs[1..], files, loader);
        AppendAssoc(app, chunk, RouteEvents(fs[1..], files, loader));
      }
    }
  }

  // ---------------------------------------------------------------------------
  // loadInit
  // ---------------------------------------------------------------------------

  /** The `walkFilesOfType` callback of `loadInit`: import the module and await
      `init(app)`. A missing `init` export throws before anything runs; a hook that
      rejects has already been called with the application. */
  function InitStep(app: seq<Event>, file: SquidFile, loader: map<string, Module>): (r: Effect<seq<Event>>)
    ensures file.path !in loader ==> r == Effect(app, Fail(LoadFailed(file.path)))
    ensures r.outcome.Fail? ==> InitFault(file, r.outcome.fault)
  {
    match Import(loader, file.path)
    case Err(f) => Effect(app, Fail(f))
    case Ok(m) =>
      match m.init
      case NoInit => Effect(app, Fail(MissingExport(file.path, "init")))
      case InitReturns => Effect(app + [RunInit(file.path)], Pass)
      case InitThrows => Effect(app + [RunInit(file.path)], Fail(InitThrew(file.path)))
  }

  /** `f` is an error running init file `file` can raise: its import rejected, it has no
      `init` export, or the hook rejected. */
  predicate InitFault(file: SquidFile, f: Fault)
  {
    f == LoadFailed(file.path) || f == MissingExport(file.path, "init") || f == InitThrew(file.path)
  }

  /** `loadInit(app, files)`. A manifest without init files leaves the application as it
      is; an error is one that some init file raised. */
  function LoadInit(app: seq<Event>, files: seq<SquidFile>, loader: map<string, Module>): (r: Effect<seq<Event>>)
    ensures (forall f :: f in files ==> f.fileType != Init) ==> r == Effect(app, Pass)
    ensures r.outcome.Fail? ==> exists f :: f in files && f.fileType == Init && InitFault(f, r.outcome.fault)
  {
    WalkFilesOfType(files, Init, (a: seq<Event>, f: SquidFile) => InitStep(a, f, loader), app)
  }

  /** Every init file loads and its hook completes. */
  ghost predicate InitsLoadable(files: seq<SquidFile>, loader: map<string, Module>)
  {
    forall f :: f in files && f.fileType == Init ==> f.path in loader && loader[f.path].init == InitReturns
  }

  /** Reference definition: one hook call per init file, in manifest order. */
  function InitEvents(files: seq<SquidFile>): seq<Event>
  {
    if files == [] then []
    else (if files[0].fileType == Init then [RunInit(files[0].path)] else []) + InitEvents(files[1..])
  }

  /** Running the init hooks succeeds exactly when every init file loads and its hook
      completes, and then every hook has been called once, in manifest order. */
  lemma {:induction false} LoadInitSpec(app: seq<Event>, files: seq<SquidFile>, loader: map<string, Module>)
    ensures LoadInit(app, files, loader).outcome.Pass? <==> InitsLoadable(files, loader)
    ensures LoadInit(app, files, loader).outcome.Pass? ==> LoadInit(app, files, loader).state == app + InitEvents(files)
    decreases |files|
  {
    var cb := (a: seq<Event>, f: SquidFile) => InitStep(a, f, loader);
    if files == [] {
      assert app + [] == app;
    } else {
      var f := files[0];
      var chunk := if f.fileType == Init then [RunInit(f.path)] else [];
      assert forall g :: g in files <==> g == f || g in files[1..];
      if f.fileType == Init && !(f.path in loader && loader[f.path].init == InitReturns) {
        assert WalkFilesOfType(files, Init, cb, app).outcome.Fail?;
      } else {
        var next := if f.fileType == Init then cb(app, f).state else app;
        assert next == app + chunk;
        assert LoadInit(app, files, loader) == LoadInit(next, files[1..], loader);
        LoadInitSpec(next, files[1..], loader);
        AppendAssoc(app, chunk, InitEvents(files[1..]));
      }
    }
  }

  /** A hook that rejects has been called: the application records the call, and nothing
      after it runs. */
  lemma InitThrowsAfterCall(app: seq<Event>, file: SquidFile, loader: map<string, Module>)
    requires file.path in loader && loader[file.path].init == InitThrows
    ensures InitStep(app, file, loader) == Effect(app + [RunInit(file.path)], Fail(InitThrew(file.path)))
  {
  }

  // ---------------------------------------------------------------------------
  // mountStaticFiles
  // ---------------------------------------------------------------------------

  /** The path of the static route. */
  const StaticRoute: string := "/static/*"

  /** `mountStaticFiles(app, dir)`: one GET route under `/static/`, with no middleware. */
  function MountStaticFiles(app: seq<Event>, dir: string): (r: seq<Event>)
    ensures |r| == |app| + 1 && r[..|app|] == app
    ensures r[|app|].Mount? && r[|app|].verb == Get && r[|app|].mw == []
  {
    app + [Mount(Get, StaticRoute, ServeStatic(dir), [])]
  }

  /** The file the static handler serves for a request path: `./`, the directory and the
      request path (which still starts with `/static/`), concatenated. */
  function StaticTarget(dir: string, requestPath: string): (p: string)
    ensures |p| == 2 + |dir| + |requestPath|
    ensures p[..2] == "./" && p[2..2 + |dir|] == dir && p[2 + |dir|..] == requestPath
  {
    "./" + dir + requestPath
  }

  /** The directory given is the resolved, absolute root, so the served path starts with
      `.//` and names a location below the server's working directory, with the request's
      `/static/` segment kept. */
  lemma StaticTargetOfAbsoluteDir(dir: string, rest: string)
    requires |dir| >= 1 && dir[0] == '/'
    ensures var p := StaticTarget(dir, "/static/" + rest);
      p[..3] == ".//" && p[|p| - |rest| - 8..] == "/static/" + rest
  {
  }
}

=== FILE: order.dfy ===
/** `orderFilesByDepth` of index.ts: `Array.prototype.sort` with the comparator
    `depthA - depthB`, where a file's depth is recomputed as the number of
    `/`-separated parts of its path. `Array.prototype.sort` is stable, so files
    of equal depth keep the order in which the walk discovered them.

    The sort itself is stated for any key function; `OrderFilesByDepth` applies it
    to the comparator's key. */
module Ordering {
  import opened Strings
  import opened SquidFiles

  /** Non-decreasing by `key`. */
  ghost predicate SortedBy<T>(s: seq<T>, key: T -> nat)
  {
    forall i, j :: 0 <= i < j < |s| ==> key(s[i]) <= key(s[j])
  }

  /** The elements of `s` whose key is `d`, in the order of `s`. */
  function WithKey<T>(s: seq<T>, key: T -> nat, d: nat): seq<T>
  {
    if s == [] then []
    else WithKey(s[..|s| - 1], key, d) + (if key(s[|s| - 1]) == d then [s[|s| - 1]] else [])
  }

  /** Puts `x` after every trailing element whose key exceeds its own: the step of a
      stable insertion sort that takes the elements in their original order. */
  function InsertBy<T>(s: seq<T>, x: T, key: T -> nat): (r: seq<T>)
    ensures multiset(r) == multiset(s) + multiset{x}
  {
    if s == [] then [x]
    else if key(s[|s| - 1]) <= key(x) then s + [x]
    else
      assert s == s[..|s| - 1] + [s[|s| - 1]];
      InsertBy(s[..|s| - 1], x, key) + [s[|s| - 1]]
  }

  /** Stable insertion sort by `key`: a permutation, non-decreasing in `key`. */
  function SortBy<T>(s: seq<T>, key: T -> nat): (r: seq<T>)
    ensures multiset(r) == multiset(s)
    ensures SortedBy(r, key)
  {
    if s == [] then []
    else
      var init, last := s[..|s| - 1], s[|s| - 1];
      assert s == init + [last];
      var sortedInit := SortBy(init, key);
      InsertSorted(sortedInit, last, key);
      InsertBy(sortedInit, last, key)
  }

  /** Every key in `InsertBy(s, x)` is at most `bound` when `x`'s and all of `s`'s are. */
  lemma {:induction false} InsertBounded<T>(s: seq<T>, x: T, key: T -> nat, bound: nat)
    requires key(x) <= bound
    requires forall i :: 0 <= i < |s| ==> key(s[i]) <= bound
    ensures forall i :: 0 <= i < |InsertBy(s, x, key)| ==> key(InsertBy(s, x, key)[i]) <= bound
  {
    var r := InsertBy(s, x, key);
    forall i | 0 <= i < |r| ensures key(r[i]) <= bound {
      assert r[i] in multiset(r);
      if r[i] != x {
        assert r[i] in multiset(s);
      }
    }
  }

  /** Insertion keeps a sorted sequence sorted. */
  lemma {:induction false} InsertSorted<T>(s: seq<T>, x: T, key: T -> nat)
    requires SortedBy(s, key)
    ensures SortedBy(InsertBy(s, x, key), key)
    decreases |s|
  {
    if s != [] && key(s[|s| - 1]) > key(x) {
      var last := s[|s| - 1];
      var init := s[..|s| - 1];
      SortedInit(s, key);
      InsertSorted(init, x, key);
      InsertBounded(init, x, key, key(last));
    }
  }

  lemma {:induction false} WithKeyAppend<T>(s: seq<T>, x: T, key: T -> nat, d: nat)
    ensures WithKey(s + [x], key, d) == WithKey(s, key, d) + (if key(x) == d then [x] else [])
  {
    assert (s + [x])[..|s + [x]| - 1] == s;
  }

  /** Inserting into a sorted sequence appends `x` to the elements of its own key and
      leaves those of every other key as they were. */
  lemma {:induction false} InsertStable<T>(s: seq<T>, x: T, key: T -> nat, d: nat)
    requires SortedBy(s, key)
    ensures WithKey(InsertBy(s, x, key), key, d) == WithKey(s, key, d) + (if key(x) == d then [x] else [])
    decreases |s|
  {
    if s == [] {
      WithKeyAppend([], x, key, d);
    } else if key(s[|s| - 1]) <= key(x) {
      WithKeyAppend(s, x, key, d);
    } else {
      var last := s[|s| - 1];
      var init := s[..|s| - 1];
      assert InsertBy(s, x, key) == InsertBy(init, x, key) + [last];
      SortedInit(s, key);
      InsertStable(init, x, key, d);
      WithKeyAppend(InsertBy(init, x, key), last, key, d);
      WithKeyAppend(init, last, key, d);
    }
  }

  /** Stability: for every key, the elements with that key appear in the result in
      exactly the order they had in the input. */
  lemma {:induction false} SortIsStable<T>(s: seq<T>, key: T -> nat, d: nat)
    ensures WithKey(SortBy(s, key), key, d) == WithKey(s, key, d)
    decreases |s|
  {
    if s != [] {
      var init := s[..|s| - 1];
      var last := s[|s| - 1];
      assert s == init + [last];
      assert SortBy(s, key) == InsertBy(SortBy(init, key), last, key);
      SortIsStable(init, key, d);
      InsertStable(SortBy(init, key), last, key, d);
      WithKeyAppend(init, last, key, d);
    }
  }

  /** An element of `s` is among the elements of its own key. */
  lemma {:induction false} InWithKey<T>(s: seq<T>, x: T, key: T -> nat)
    requires x in s
    ensures x in WithKey(s, key, key(x))
    decreases |s|
  {
    var init := s[..|s| - 1];
    assert s == init + [s[|s| - 1]];
    if x != s[|s| - 1] {
      assert x in init;
      InWithKey(init, x, key);
    }
  }

  /** Everything in `WithKey(s, key, d)` comes from `s`. */
  lemma {:induction false} WithKeyMembers<T>(s: seq<T>, key: T -> nat, d: nat)
    ensures forall y :: y in WithKey(s, key, d) ==> y in s
    decreases |s|
  {
    if s != [] {
      var init := s[..|s| - 1];
      WithKeyMembers(init, key, d);
      assert s == init + [s[|s| - 1]];
    }
  }

  /** A non-empty sequence has a non-empty class for the key of its last element. */
  lemma KeyClassOfLast<T>(s: seq<T>, key: T -> nat)
    ensures s != [] ==> WithKey(s, key, key(s[|s| - 1])) != []
  {
  }

  /** In a sorted sequence no element has a key above the last one's. */
  lemma LastKeyIsLargest<T>(s: seq<T>, key: T -> nat, y: T)
    requires SortedBy(s, key) && y in s
    ensures key(y) <= key(s[|s| - 1])
  {
    var i :| 0 <= i < |s| && s[i] == y;
    if i < |s| - 1 {
      assert key(s[i]) <= key(s[|s| - 1]);
    }
  }

  /** Dropping the last element keeps a sequence sorted. */
  lemma SortedInit<T>(s: seq<T>, key: T -> nat)
    requires SortedBy(s, key) && s != []
    ensures SortedBy(s[..|s| - 1], key)
  {
  }

  /** Two non-empty sorted sequences with the same class for every key end alike. */
  lemma {:induction false} SameLast<T>(a: seq<T>, b: seq<T>, key: T -> nat)
    requires a != [] && b != []
    requires SortedBy(a, key) && SortedBy(b, key)
    requires forall d :: WithKey(a, key, d) == WithKey(b, key, d)
    ensures a[|a| - 1] == b[|b| - 1]
  {
    var x, y := a[|a| - 1], b[|b| - 1];
    // Each last element occurs in the other sequence, so the two last keys bound each other.
    InWithKey(b, y, key);
    WithKeyMembers(a, key, key(y));
    LastKeyIsLargest(a, key, y);
    InWithKey(a, x, key);
    WithKeyMembers(b, key, key(x));
    LastKeyIsLargest(b, key, x);
    var k := key(x);
    assert a == a[..|a| - 1] + [x] && b == b[..|b| - 1] + [y];
    WithKeyAppend(a[..|a| - 1], x, key, k);
    WithKeyAppend(b[..|b| - 1], y, key, k);
    assert x == WithKey(a, key, k)[|WithKey(a, key, k)| - 1];
    assert y == WithKey(b, key, k)[|WithKey(b, key, k)| - 1];
  }

  /** Removing the same last element from two sequences keeps their classes equal. */
  lemma {:induction false} SameClassesOfInit<T>(a: seq<T>, b: seq<T>, key: T -> nat, d: nat)
    requires a != [] && b != [] && a[|a| - 1] == b[|b| - 1]
    requires WithKey(a, key, d) == WithKey(b, key, d)
    ensures WithKey(a[..|a| - 1], key, d) == WithKey(b[..|b| - 1], key, d)
  {
    var x := a[|a| - 1];
    var wa, wb := WithKey(a[..|a| - 1], key, d), WithKey(b[..|b| - 1], key, d);
    assert a == a[..|a| - 1] + [x] && b == b[..|b| - 1] + [x];
    WithKeyAppend(a[..|a| - 1], x, key, d);
    WithKeyAppend(b[..|b| - 1], x, key, d);
    if key(x) == d {
      assert WithKey(a, key, d)[..|WithKey(a, key, d)| - 1] == wa;
      assert WithKey(b, key, d)[..|WithKey(b, key, d)| - 1] == wb;
    } else {
      assert WithKey(a, key, d) == wa + [] == wa;
      assert WithKey(b, key, d) == wb + [] == wb;
    }
  }

  /** Two sequences sorted by `key` that agree on the elements of every key are equal. */
  lemma {:induction false} SortedUnique<T>(a: seq<T>, b: seq<T>, key: T -> nat)
    requires SortedBy(a, key) && SortedBy(b, key)
    requires forall d :: WithKey(a, key, d) == WithKey(b, key, d)
    ensures a == b
    decreases |a| + |b|
  {
    if a == [] || b == [] {
      // Both are empty: the last element of a non-empty one would make its key's class
      // non-empty there and empty in the other.
      KeyClassOfLast(a, key);
      KeyClassOfLast(b, key);
    } else {
      var a', b' := a[..|a| - 1], b[..|b| - 1];
      SameLast(a, b, key);
      forall d ensures WithKey(a', key, d) == WithKey(b', key, d) {
        SameClassesOfInit(a, b, key, d);
      }
      SortedInit(a, key);
      SortedInit(b, key);
      SortedUnique(a', b', key);
      assert a == a' + [a[|a| - 1]] && b == b' + [b[|b| - 1]];
    }
  }

  /** The comparator's sort key, `file.path.split('/').length`. */
  function Depth(f: SquidFile): (d: nat)
    ensures d == Count(f.path, '/') + 1
  {
    |Split(f.path, '/')|
  }

  /** For a record built by the constructor the comparator's key is the recorded depth. */
  lemma DepthIsRecorded(path: string, text: string, fileType: FileType, httpPath: string)
    ensures Depth(NewSquidFile(path, text, fileType, httpPath)) == NewSquidFile(path, text, fileType, httpPath).depth
  {
  }

  /** `orderFilesByDepth(files)`: a permutation of `files`, non-decreasing in depth. */
  function OrderFilesByDepth(files: seq<SquidFile>): (r: seq<SquidFile>)
    ensures multiset(r) == multiset(files)
    ensures forall i, j :: 0 <= i < j < |r| ==> Depth(r[i]) <= Depth(r[j])
  {
    SortBy(files, Depth)
  }

  /** Stability of `orderFilesByDepth`: for every depth, the files of that depth appear in
      discovery order. */
  lemma OrderIsStable(files: seq<SquidFile>, d: nat)
    ensures WithKey(OrderFilesByDepth(files), Depth, d) == WithKey(files, Depth, d)
  {
    SortIsStable(files, Depth, d);
  }

  /** The order is the only stable one: every sequence that is sorted by depth and keeps
      the relative order of the files of each depth is `orderFilesByDepth`'s result. So
      any stable sort with this comparator, `Array.prototype.sort` in particular, agrees. */
  lemma StableSortIsUnique(files: seq<SquidFile>, r: seq<SquidFile>)
    requires SortedBy(r, Depth)
    requires forall d :: WithKey(r, Depth, d) == WithKey(files, Depth, d)
    ensures r == OrderFilesByDepth(files)
  {
    forall d ensures WithKey(r, Depth, d) == WithKey(OrderFilesByDepth(files), Depth, d) {
      SortIsStable(files, Depth, d);
    }
    SortedUnique(r, OrderFilesByDepth(files), Depth);
  }
}

=== FILE: squid_file.dfy ===
/** `SquidFile` of index.ts: one record per classified file, with the HTTP path
    derived from where the file sits under the application root. */
module SquidFiles {
  import opened Strings
  import opened Faults

  /** `SquidFileType`. */
  datatype FileType = Init | Route | Middleware

  datatype SquidFile = SquidFile(
    path: string,
    text: string,
    fileType: FileType,
    pathParts: seq<string>,
    lastPathPart: string,
    depth: nat,
    extension: string,
    httpPath: string)

  /** The `SquidFile` constructor: the path is split on `/`, `depth` is the number of
      parts and `lastPathPart` the final one; `extension` is the final `.`-separated
      part of that (`SquidFileShape` says what these are in terms of the path). */
  function NewSquidFile(path: string, text: string, fileType: FileType, httpPath: string): (f: SquidFile)
    ensures f.path == path && f.text == text && f.fileType == fileType && f.httpPath == httpPath
    ensures f.depth == |f.pathParts| == Count(path, '/') + 1
    ensures Join(f.pathParts, '/') == path
    ensures forall k :: 0 <= k < |f.pathParts| ==> '/' !in f.pathParts[k]
    ensures f.lastPathPart == f.pathParts[|f.pathParts| - 1]
  {
    var parts := Split(path, '/');
    SquidFile(path, text, fileType, parts, LastPart(path, '/'), |parts|, LastPart(LastPart(path, '/'), '.'), httpPath)
  }

  /** What the constructor's derived fields are: `lastPathPart` is the text after the last
      `/` of the path, and `extension` the text after the last `.` of that. When the file
      name has no `.` at all, `split('.')` yields the whole name, so the extension is the
      whole file name rather than empty. */
  lemma SquidFileShape(path: string, text: string, fileType: FileType, httpPath: string)
    ensures var f := NewSquidFile(path, text, fileType, httpPath);
      IsTail(path, f.lastPathPart, '/') && IsTail(f.lastPathPart, f.extension, '.')
  {
    FieldsAreLastParts(path, text, fileType, httpPath);
    LastPartIsTail(path, '/');
    LastPartIsTail(LastPart(path, '/'), '.');
  }

  /** The fields are `split(...)` followed by taking the last element. */
  lemma FieldsAreLastParts(path: string, text: string, fileType: FileType, httpPath: string)
    ensures var f := NewSquidFile(path, text, fileType, httpPath);
      f.lastPathPart == LastPart(path, '/') && f.extension == LastPart(f.lastPathPart, '.')
  {
  }

  /** `root.replace('./', '')`: the first `./` is removed wherever it is. So a root
      written `./name` is matched by `name`, a root without `./` is matched as written,
      and otherwise exactly the two characters of the first `./` go (`../app` becomes
      `.app`). */
  function RootAltered(root: string): (r: string)
    ensures !Includes(root, "./") ==> r == root
    ensures "./" <= root ==> r == root[2..]
    ensures Includes(root, "./") ==> |r| == |root| - 2
    ensures Includes(root, "./") ==> r == root[..IndexOf(root, "./")] + root[IndexOf(root, "./") + 2..]
  {
    var i := IndexOf(root, "./");
    assert "./" <= root ==> OccursAt(root, "./", 0);
    assert Includes(root, "./") <==> i != -1;
    assert i != -1 ==> ReplaceFirst(root, "./", "") == root[..i] + "" + root[i + 2..] == root[..i] + root[i + 2..];
    ReplaceFirst(root, "./", "")
  }

  /** The HTTP path computed by `SquidFile.new`: cut the path at the FIRST occurrence of
      the root name (anywhere, even inside a longer directory name; `slice(-1)` keeps the
      last character when there is no occurrence), split on `/`, drop the first part
      (the segment holding the root name) and the last (the file name), and join the
      rest under `/`. One remaining part, or none, gives `/`. */
  function DeriveHttpPath(path: string, root: string): (h: string)
    ensures |h| >= 1 && h[0] == '/'
  {
    var relativePath := SliceFrom(path, IndexOf(path, RootAltered(root)));
    var parts := Split(relativePath, '/')[1..];
    if |parts| == 1 then "/"
    else
      var interior := if parts == [] then [] else parts[..|parts| - 1];
      "/" + Join(interior, '/')
  }

  /** When the text from the cut onwards holds no `/` (the root name first occurs inside
      the file name, or the cut keeps a single character), splitting it gives one part,
      which `shift()` removes, so the HTTP path is `/`. */
  lemma DeriveWithoutSlashAfterCut(path: string, root: string)
    requires '/' !in SliceFrom(path, IndexOf(path, RootAltered(root)))
    ensures DeriveHttpPath(path, root) == "/"
  {
    SplitNoSep(SliceFrom(path, IndexOf(path, RootAltered(root))), '/');
  }

  /** When the root name occurs nowhere in the path, `indexOf` gives -1 and `slice(-1)`
      keeps only the last character (nothing for an empty path). Whatever that character
      is, the HTTP path is `/`. */
  lemma DeriveWithoutRoot(path: string, root: string)
    requires forall i :: !OccursAt(path, RootAltered(root), i)
    ensures DeriveHttpPath(path, root) == "/"
  {
    var rel := SliceFrom(path, IndexOf(path, RootAltered(root)));
    assert IndexOf(path, RootAltered(root)) == -1;
    if path != [] && path[|path| - 1] == '/' {
      assert rel == "/";
      assert Split(rel, '/') == [[]] + Split([], '/');
      assert Split([], '/') == [[]];
    } else {
      assert path == [] ==> rel == [];
      assert path != [] ==> rel == [path[|path| - 1]];
      DeriveWithoutSlashAfterCut(path, root);
    }
  }

  /** `SquidFile.new(path, fileType, root)`: reading the text is the only step that can
      fail, and it fails by throwing; the record is always returned as `Exit.ok`, never as
      `Exit.err`. The path is not checked against the root in any way. */
  function NewFromDisk(path: string, fileType: FileType, root: string, contents: map<string, string>): (r: Awaited<Result<SquidFile>>)
    ensures r.Threw? <==> path !in contents
    ensures r.Threw? ==> r.fault == ReadFailed(path)
    ensures r.Returned? ==>
      && r.value.Ok? && r.value.value.path == path && r.value.value.text == contents[path]
      && r.value.value.fileType == fileType && r.value.value.httpPath == DeriveHttpPath(path, root)
  {
    if path !in contents then Threw(ReadFailed(path))
    else Returned(Ok(NewSquidFile(path, contents[path], fileType, DeriveHttpPath(path, root))))
  }

  /** The derivation in general. Say the root name first occurs at the start of some
      segment `seg`, which is followed by directories `dirs` and the file name; the root
      name may be longer than `seg` and run on into `dirs`. Only `seg` and the file name
      are dropped: the HTTP path is `/` for a file directly below `seg`, and otherwise `/`
      followed by the directories joined with `/`, including any the root name spans
      beyond its first segment. */
  lemma {:induction false} DeriveFromFirstOccurrence(pre: string, seg: string, dirs: seq<string>, file: string, root: string)
    requires RootAltered(root) <= seg + "/" + Join(dirs + [file], '/')
    requires '/' !in seg && '/' !in file
    requires forall k :: 0 <= k < |dirs| ==> '/' !in dirs[k]
    requires forall i :: 0 <= i < |pre| ==> !OccursAt(pre + seg + "/" + Join(dirs + [file], '/'), RootAltered(root), i)
    ensures DeriveHttpPath(pre + seg + "/" + Join(dirs + [file], '/'), root)
         == if dirs == [] then "/" else "/" + Join(dirs, '/')
  {
    var rootName := RootAltered(root);
    var rel := seg + "/" + Join(dirs + [file], '/');
    var path := pre + rel;
    assert path == pre + seg + "/" + Join(dirs + [file], '/');
    assert OccursAt(path, rootName, |pre|) by {
      assert path[|pre|..|pre| + |rootName|] == rel[..|rootName|];
    }
    assert IndexOf(path, rootName) == |pre|;
    assert SliceFrom(path, |pre|) == rel;
    forall k | 0 <= k < |dirs + [file]| ensures '/' !in (dirs + [file])[k] {
      if k < |dirs| {
        assert (dirs + [file])[k] == dirs[k];
      }
    }
    SplitSegments(seg, dirs + [file]);
    assert (dirs + [file])[..|dirs|] == dirs;
  }

  /** A segment followed by `/` and joined parts splits back into the segment and the parts. */
  lemma SplitSegments(seg: string, rest: seq<string>)
    requires '/' !in seg && |rest| >= 1
    requires forall k :: 0 <= k < |rest| ==> '/' !in rest[k]
    ensures Split(seg + "/" + Join(rest, '/'), '/') == [seg] + rest
  {
    var segs := [seg] + rest;
    forall k | 0 <= k < |segs| ensures '/' !in segs[k] {
      if k > 0 {
        assert segs[k] == rest[k - 1];
      }
    }
    JoinAppend([seg], rest, '/');
    SplitJoin(segs, '/');
  }

  /** The convention: `<...>/<root>/+route.ts` gets `/`, and `<...>/<root>/a/b/+mw.ts`
      gets `/a/b`, provided the root name does not occur earlier in the path. */
  lemma DeriveUnderRoot(pre: string, dirs: seq<string>, file: string, root: string)
    requires '/' !in RootAltered(root) && '/' !in file
    requires forall k :: 0 <= k < |dirs| ==> '/' !in dirs[k]
    requires forall i :: 0 <= i < |pre| ==> !OccursAt(pre + RootAltered(root) + "/" + Join(dirs + [file], '/'), RootAltered(root), i)
    ensures DeriveHttpPath(pre + RootAltered(root) + "/" + Join(dirs + [file], '/'), root)
         == if dirs == [] then "/" else "/" + Join(dirs, '/')
  {
    DeriveFromFirstOccurrence(pre, RootAltered(root), dirs, file, root);
  }

  /** The first occurrence of the root name may sit inside an ancestor directory's name.
      With root `./app` and a route file directly in `/srv/happy/app`, the cut happens
      inside `happy` (`pre` is `/srv/h`, `seg` is `appy`), that segment is dropped, and
      the file is mounted at `/app` instead of `/`. */
  lemma RootNameInsideAncestor(pre: string, seg: string, file: string, root: string)
    requires RootAltered(root) <= seg
    requires '/' !in seg && '/' !in RootAltered(root) && '/' !in file
    requires forall i :: 0 <= i < |pre| ==> !OccursAt(pre + seg + "/" + RootAltered(root) + "/" + file, RootAltered(root), i)
    ensures DeriveHttpPath(pre + seg + "/" + RootAltered(root) + "/" + file, root) == "/" + RootAltered(root)
  {
    var rootName := RootAltered(root);
    assert Join([rootName] + [file], '/') == rootName + "/" + file;
    assert pre + seg + "/" + rootName + "/" + file == pre + seg + "/" + Join([rootName] + [file], '/');
    assert rootName <= seg + "/" + Join([rootName] + [file], '/') by {
      assert (seg + "/" + Join([rootName] + [file], '/'))[..|seg|] == seg;
    }
    DeriveFromFirstOccurrence(pre, seg, [rootName], file, root);
  }

  /** A root that names a nested directory, such as `./src/app`, is matched as a whole, but
      only its first segment is dropped: the segments after it stay in the HTTP path. So a
      file directly in `src/app` is mounted at `/app`, and one in `src/app/users` at
      `/app/users`. */
  lemma NestedRootKeepsInnerSegments(pre: string, outer: string, inner: string, dirs: seq<string>, file: string, root: string)
    requires RootAltered(root) == outer + "/" + inner
    requires '/' !in outer && '/' !in inner && '/' !in file
    requires forall k :: 0 <= k < |dirs| ==> '/' !in dirs[k]
    requires forall i :: 0 <= i < |pre| ==> !OccursAt(pre + outer + "/" + inner + "/" + Join(dirs + [file], '/'), RootAltered(root), i)
    ensures DeriveHttpPath(pre + outer + "/" + inner + "/" + Join(dirs + [file], '/'), root)
         == "/" + Join([inner] + dirs, '/')
  {
    var tail := Join(dirs + [file], '/');
    var ds := [inner] + dirs;
    NestedRootJoin(inner, dirs, file);
    var lhs := pre + outer + "/" + inner + "/" + tail;
    AppendAssoc(pre + outer + "/" + inner, "/", tail);
    AppendAssoc(pre + outer + "/", inner, "/" + tail);
    AppendAssoc(inner, "/", tail);
    assert lhs == pre + outer + "/" + Join(ds + [file], '/');
    AppendAssoc(outer + "/", inner, "/" + tail);
    AppendAssoc(outer + "/" + inner, "/", tail);
    assert RootAltered(root) <= outer + "/" + Join(ds + [file], '/');
    forall k | 0 <= k < |ds| ensures '/' !in ds[k] {
      if k > 0 {
        assert ds[k] == dirs[k - 1];
      }
    }
    DeriveFromFirstOccurrence(pre, outer, ds, file, root);
  }

  lemma NestedRootJoin(inner: string, dirs: seq<string>, file: string)
    ensures Join([inner] + dirs + [file], '/') == inner + "/" + Join(dirs + [file], '/')
  {
    assert [inner] + dirs + [file] == [inner] + (dirs + [file]);
    JoinAppend([inner], dirs + [file], '/');
  }
}

=== FILE: strings.dfy ===
/** The handful of JavaScript string operations the convention engine relies on:
    `indexOf`, `includes`, `startsWith`, `replace` (first occurrence, string
    pattern), `slice` from a possibly negative start, `split` on one character
    and `join`. Each is written out so that its edge cases are those of the
    JavaScript built-in. */
module Strings {

  /** `pat` occurs in `s` starting at index `i`. */
  predicate OccursAt(s: string, pat: string, i: int)
  {
    0 <= i && i + |pat| <= |s| && s[i..i + |pat|] == pat
  }

  /** `s.indexOf(pat, from)`: the first index at or after `from` where `pat` occurs, or -1. */
  function IndexFrom(s: string, pat: string, from: nat): (r: int)
    requires from <= |s| + 1
    ensures r == -1 || (from <= r && OccursAt(s, pat, r))
    ensures r == -1 ==> forall i :: from <= i ==> !OccursAt(s, pat, i)
    ensures r != -1 ==> forall i :: from <= i < r ==> !OccursAt(s, pat, i)
    decreases |s| + 1 - from
  {
    if from + |pat| > |s| then -1
    else if s[from..from + |pat|] == pat then from
    else IndexFrom(s, pat, from + 1)
  }

  /** `s.indexOf(pat)`: the FIRST occurrence of `pat` in `s`, or -1 when there is none.
      The empty pattern occurs at index 0. */
  function IndexOf(s: string, pat: string): (r: int)
    ensures r == -1 <==> forall i :: !OccursAt(s, pat, i)
    ensures r != -1 ==> OccursAt(s, pat, r) && forall i :: 0 <= i < r ==> !OccursAt(s, pat, i)
  {
    IndexFrom(s, pat, 0)
  }

  /** `s.includes(pat)`. */
  function Includes(s: string, pat: string): (b: bool)
    ensures b <==> exists i :: OccursAt(s, pat, i)
  {
    IndexOf(s, pat) != -1
  }

  /** `s.startsWith(prefix)`: a plain string prefix, blind to path segments. */
  predicate StartsWith(s: string, prefix: string)
  {
    prefix <= s
  }

  /** `s.replace(pat, rep)` with a string pattern: only the first occurrence is replaced,
      and `s` is returned unchanged when `pat` does not occur. */
  function ReplaceFirst(s: string, pat: string, rep: string): (r: string)
    ensures !Includes(s, pat) ==> r == s
    ensures Includes(s, pat) ==>
      exists i :: OccursAt(s, pat, i) && r == s[..i] + rep + s[i + |pat|..]
                  && forall j :: 0 <= j < i ==> !OccursAt(s, pat, j)
  {
    var i := IndexOf(s, pat);
    if i == -1 then s else s[..i] + rep + s[i + |pat|..]
  }

  /** `t` is a suffix of `s`. */
  predicate EndsWith(s: string, t: string)
  {
    |t| <= |s| && s[|s| - |t|..] == t
  }

  /** `s.slice(start)` (end = length): a negative start counts back from the end and is
      clamped at 0; a start past the end yields the empty string. */
  function SliceFrom(s: string, start: int): (r: string)
    ensures 0 <= start <= |s| ==> r == s[start..]
    ensures start < 0 ==> r == s[if |s| + start < 0 then 0 else |s| + start..]
    ensures start > |s| ==> r == []
    ensures EndsWith(s, r)
  {
    if start < 0 then s[if |s| + start < 0 then 0 else |s| + start..]
    else if start > |s| then []
    else s[start..]
  }

  /** Number of occurrences of the character `c` in `s`. */
  function Count(s: string, c: char): nat
  {
    if s == [] then 0 else (if s[0] == c then 1 else 0) + Count(s[1..], c)
  }

  /** `parts.join(sep)`: the parts with one `sep` between neighbours; `[].join(sep)` is "".
      `Split` and `SplitJoin` make it the inverse of splitting. */
  function Join(parts: seq<string>, sep: char): (r: string)
    ensures |parts| >= 1 ==> parts[0] <= r
    ensures |parts| >= 2 ==> |parts[0]| < |r| && r[|parts[0]|] == sep
  {
    if |parts| == 0 then []
    else if |parts| == 1 then parts[0]
    else parts[0] + [sep] + Join(parts[1..], sep)
  }

  /** `s.split(sep)` for a one-character separator: never empty (`"".split(sep)` is
      `[""]`), no part contains the separator, there is one part more than there are
      separators, and joining the parts back gives `s`. */
  function Split(s: string, sep: char): (r: seq<string>)
    ensures |r| >= 1
    ensures |r| == Count(s, sep) + 1
    ensures forall k :: 0 <= k < |r| ==> sep !in r[k]
    ensures Join(r, sep) == s
  {
    if s == [] then [[]]
    else if s[0] == sep then
      var t := Split(s[1..], sep);
      assert s == [] + [sep] + Join(t, sep);
      [[]] + t
    else
      var t := Split(s[1..], sep);
      var r := [[s[0]] + t[0]] + t[1..];
      assert Join(r, sep) == s by {
        if |t| == 1 {
        } else {
          assert r[1..] == t[1..];
        }
      }
      r
  }

  /** `s.split(sep)` followed by taking the last element: the text after the last separator. */
  function LastPart(s: string, sep: char): string
  {
    var parts := Split(s, sep);
    parts[|parts| - 1]
  }

  /** Join then split is the identity when no part contains the separator: the inverse
      of the `Join(Split(s)) == s` guarantee of `Split`. */
  lemma {:induction false} SplitJoin(parts: seq<string>, sep: char)
    requires |parts| >= 1
    requires forall k :: 0 <= k < |parts| ==> sep !in parts[k]
    ensures Split(Join(parts, sep), sep) == parts
    decreases |parts|, |parts[0]|
  {
    if |parts| == 1 {
      SplitNoSep(parts[0], sep);
    } else if parts[0] == [] {
      var rest := parts[1..];
      SplitJoin(rest, sep);
      assert Join(parts, sep) == [sep] + Join(rest, sep);
      assert Join(parts, sep)[1..] == Join(rest, sep);
    } else {
      var p0 := parts[0];
      var shorter := [p0[1..]] + parts[1..];
      assert p0[0] in p0;
      forall k | 0 <= k < |shorter| ensures sep !in shorter[k] {
        if k == 0 {
          assert forall c :: c in p0[1..] ==> c in p0;
        } else {
          assert shorter[k] == parts[k];
        }
      }
      SplitJoin(shorter, sep);
      SplitJoinStep(parts, sep);
    }
  }

  /** The step of `SplitJoin` that peels the first character off a non-empty first part. */
  lemma SplitJoinStep(parts: seq<string>, sep: char)
    requires |parts| >= 2 && parts[0] != [] && parts[0][0] != sep
    requires Split(Join([parts[0][1..]] + parts[1..], sep), sep) == [parts[0][1..]] + parts[1..]
    ensures Split(Join(parts, sep), sep) == parts
  {
    var p0 := parts[0];
    var shorter := [p0[1..]] + parts[1..];
    assert Join(shorter, sep) == p0[1..] + [sep] + Join(parts[1..], sep);
    var s := Join(parts, sep);
    assert s == [p0[0]] + Join(shorter, sep);
    assert s[0] == p0[0] && s[1..] == Join(shorter, sep);
    assert Split(s, sep) == [[p0[0]] + shorter[0]] + shorter[1..];
    assert shorter[1..] == parts[1..];
    assert [p0[0]] + p0[1..] == p0;
  }

  /** A string without the separator splits into itself alone. */
  lemma {:induction false} SplitNoSep(s: string, sep: char)
    requires sep !in s
    ensures Split(s, sep) == [s]
  {
    if s != [] {
      assert sep !in s[1..] by {
        forall k | 0 <= k < |s[1..]| ensures s[1..][k] != sep {
          assert s[1..][k] == s[k + 1];
        }
      }
      SplitNoSep(s[1..], sep);
    }
  }

  /** Concatenation is associative; stated once so that proofs about long chains of
      records or parts can regroup them without unfolding the sequences. */
  lemma AppendAssoc<T>(x: seq<T>, y: seq<T>, z: seq<T>)
    ensures x + y + z == x + (y + z)
  {
  }

  /** Splitting `a + [sep] + b` splits `a` and `b` separately. */
  lemma {:induction false} SplitAppend(a: string, b: string, sep: char)
    ensures Split(a + [sep] + b, sep) == Split(a, sep) + Split(b, sep)
  {
    var pa := Split(a, sep);
    var pb := Split(b, sep);
    forall k | 0 <= k < |pa + pb| ensures sep !in (pa + pb)[k] {
      if k < |pa| { assert (pa + pb)[k] == pa[k]; } else { assert (pa + pb)[k] == pb[k - |pa|]; }
    }
    SplitJoin(pa + pb, sep);
    JoinAppend(pa, pb, sep);
  }

  /** Joining a concatenation of two non-empty part lists puts one separator between them. */
  lemma {:induction false} JoinAppend(a: seq<string>, b: seq<string>, sep: char)
    requires |a| >= 1 && |b| >= 1
    ensures Join(a + b, sep) == Join(a, sep) + [sep] + Join(b, sep)
    decreases |a|
  {
    if |a| == 1 {
      assert (a + b)[1..] == b;
    } else {
      assert (a + b)[1..] == a[1..] + b;
      JoinAppend(a[1..], b, sep);
    }
  }

  /** No separator means no split: the count of a character is zero exactly when it is absent. */
  lemma {:induction false} CountZero(s: string, c: char)
    ensures Count(s, c) == 0 <==> c !in s
  {
    if s != [] {
      CountZero(s[1..], c);
      assert s == [s[0]] + s[1..];
    }
  }

  /** The last of the joined parts is the text after the last separator of the joined string. */
  lemma {:induction false} JoinLastPart(parts: seq<string>, sep: char)
    requires |parts| >= 1
    ensures var s, l := Join(parts, sep), parts[|parts| - 1];
      EndsWith(s, l) && (|parts| > 1 ==> |l| < |s| && s[|s| - |l| - 1] == sep)
    decreases |parts|
  {
    if |parts| > 1 {
      JoinLastPart(parts[1..], sep);
      var rest := Join(parts[1..], sep);
      assert Join(parts, sep) == parts[0] + [sep] + rest;
      assert parts[1..][|parts[1..]| - 1] == parts[|parts| - 1];
    }
  }

  /** `last` is the text after the last `sep` of `s`: a suffix of `s` without the
      separator, preceded by a separator whenever `s` contains one, and all of `s` otherwise. */
  predicate IsTail(s: string, last: string, sep: char)
  {
    && sep !in last && EndsWith(s, last)
    && (sep in s ==> |last| < |s| && s[|s| - |last| - 1] == sep)
    && (sep !in s ==> last == s)
  }

  /** `s.split(sep)` with its last element is the text after the last separator. */
  lemma LastPartIsTail(s: string, sep: char)
    ensures IsTail(s, LastPart(s, sep), sep)
  {
    var parts := Split(s, sep);
    JoinLastPart(parts, sep);
    CountZero(s, sep);
  }
}

=== FILE: walk.dfy ===
/** `walkDir` of src/util.ts over an abstract directory tree.

    The filesystem is a tree of entries; a directory whose listing fails
    (`readdir` rejects) is `Unlistable`. The per-entry callback is a function
    of a caller-chosen state, so that what the callback does (push records,
    throw) is part of the model rather than hidden behind `await`. */
module Walk {
  import opened Strings
  import opened Faults

  datatype Entry = File(name: string) | Dir(name: string, listing: Listing)

  /** What `readdir` gives for a directory: its entries in listing order, or a failure. */
  datatype Listing = Unlistable | Listed(entries: seq<Entry>)

  /** One callback invocation: `callback(isDir, fullPath)`. */
  datatype Visit = Visit(isDir: bool, path: string)

  /** `path.join(dir, name)`, taken as plain concatenation with one separator. */
  function JoinPath(dir: string, name: string): string
  {
    dir + "/" + name
  }

  /** The last `/`-separated part of a joined path is the entry's name, so the file name
      a record derives from its path is the name the listing gave. */
  lemma JoinPathLastPart(dir: string, name: string)
    requires '/' !in name
    ensures LastPart(JoinPath(dir, name), '/') == name
  {
    SplitAppend(dir, name, '/');
    SplitNoSep(name, '/');
  }

  /** `walkDir(dir, callback)`: a failure to list `dir` is returned as an error with
      nothing visited; otherwise the entries are walked in listing order. */
  function WalkDir<S(!new)>(dir: string, listing: Listing, cb: (S, bool, string) -> Effect<S>, s: S): (r: Effect<S>)
    ensures listing.Unlistable? ==> r.outcome == Fail(ListFailed(dir))
    ensures r.outcome.Fail? && listing.Listed? ==> CallbackFailedAtTop(dir, listing.entries, cb, r)
    decreases listing
  {
    match listing
    case Unlistable => Effect(s, Fail(ListFailed(dir)))
    case Listed(es) => WalkEntries(dir, es, cb, s)
  }

  /** The `for` loop of `walkDir`: the callback runs on an entry before the walk descends
      into it; a nested walk's result is dropped, so only the callback's own exception
      aborts the loop. A failure therefore always is one the callback raised on one of
      the TOP-LEVEL entries, and nothing runs after it. */
  function WalkEntries<S(!new)>(dir: string, es: seq<Entry>, cb: (S, bool, string) -> Effect<S>, s: S): (r: Effect<S>)
    ensures r.outcome.Fail? ==> CallbackFailedAtTop(dir, es, cb, r)
    decreases es
  {
    if es == [] then Effect(s, Pass)
    else
      var e := es[0];
      var full := JoinPath(dir, e.name);
      var step := cb(s, e.Dir?, full);
      if step.outcome.Fail? then step
      else
        var s2 := if e.Dir? then WalkDir(full, e.listing, cb, step.state).state else step.state;
        var r := WalkEntries(dir, es[1..], cb, s2);
        assert r.outcome.Fail? ==> CallbackFailedAtTop(dir, es, cb, r) by {
          if r.outcome.Fail? {
            var k, t :| 0 <= k < |es[1..]| && cb(t, es[1..][k].Dir?, JoinPath(dir, es[1..][k].name)) == r;
            assert es[1..][k] == es[k + 1];
          }
        }
        r
  }

  /** The converse of the failure contract: a callback that throws on top-level entry `k`,
      whatever state it runs in, makes the loop fail, since either an earlier callback
      throws first or the loop reaches entry `k`. */
  lemma {:induction false} TopThrowFails<S(!new)>(dir: string, es: seq<Entry>, cb: (S, bool, string) -> Effect<S>, s: S, k: nat)
    requires k < |es|
    requires forall t :: cb(t, es[k].Dir?, JoinPath(dir, es[k].name)).outcome.Fail?
    ensures WalkEntries(dir, es, cb, s).outcome.Fail?
    decreases k
  {
    var e := es[0];
    var full := JoinPath(dir, e.name);
    var step := cb(s, e.Dir?, full);
    if step.outcome.Pass? {
      assert k != 0;
      var s2 := if e.Dir? then WalkDir(full, e.listing, cb, step.state).state else step.state;
      assert es[1..][k - 1] == es[k];
      TopThrowFails(dir, es[1..], cb, s2, k - 1);
    }
  }

  /** So a listable directory whose callback throws on one of its own entries fails to walk. */
  lemma WalkDirTopThrowFails<S(!new)>(dir: string, es: seq<Entry>, cb: (S, bool, string) -> Effect<S>, s: S, k: nat)
    requires k < |es|
    requires forall t :: cb(t, es[k].Dir?, JoinPath(dir, es[k].name)).outcome.Fail?
    ensures WalkDir(dir, Listed(es), cb, s).outcome.Fail?
  {
    TopThrowFails(dir, es, cb, s, k);
  }

  /** `r` is exactly what the callback returned, in some state, for one of the entries `es` of `dir`. */
  ghost predicate CallbackFailedAtTop<S(!new)>(dir: string, es: seq<Entry>, cb: (S, bool, string) -> Effect<S>, r: Effect<S>)
  {
    exists k, t :: 0 <= k < |es| && cb(t, es[k].Dir?, JoinPath(dir, es[k].name)) == r
  }

  // ---------------------------------------------------------------------------
  // Reference traversal: the pre-order sequence of visits, independent of any callback.
  // ---------------------------------------------------------------------------

  /** The visits below a directory with this listing; an unlistable directory contributes none. */
  function ListingVisits(dir: string, listing: Listing): seq<Visit>
    decreases listing
  {
    match listing
    case Unlistable => []
    case Listed(es) => EntriesVisits(dir, es)
  }

  /** The visits for a list of entries, in listing order. */
  function EntriesVisits(dir: string, es: seq<Entry>): seq<Visit>
    decreases es
  {
    if es == [] then [] else EntryVisits(dir, es[0]) + EntriesVisits(dir, es[1..])
  }

  /** One entry's visits: the entry itself first, then (for a directory) its contents. */
  function EntryVisits(dir: string, e: Entry): seq<Visit>
    decreases e
  {
    var full := JoinPath(dir, e.name);
    [Visit(e.Dir?, full)] + (if e.Dir? then ListingVisits(full, e.listing) else [])
  }

  /** Number of entries reachable through listable directories. */
  function ListingSize(listing: Listing): nat
    decreases listing
  {
    match listing
    case Unlistable => 0
    case Listed(es) => EntriesSize(es)
  }

  function EntriesSize(es: seq<Entry>): nat
    decreases es
  {
    if es == [] then 0 else 1 + (if es[0].Dir? then ListingSize(es[0].listing) else 0) + EntriesSize(es[1..])
  }

  /** Runs a callback that completes normally over a sequence of visits. */
  function Replay<S>(cb: (S, bool, string) -> Effect<S>, s: S, vs: seq<Visit>): S
  {
    if vs == [] then s else Replay(cb, cb(s, vs[0].isDir, vs[0].path).state, vs[1..])
  }

  /** The callback completes normally, in every state, on each of the visits `vs`. */
  ghost predicate PassesOn<S(!new)>(cb: (S, bool, string) -> Effect<S>, vs: seq<Visit>)
  {
    forall s, v :: v in vs ==> cb(s, v.isDir, v.path).outcome == Pass
  }

  lemma {:induction false} ReplayAppend<S>(cb: (S, bool, string) -> Effect<S>, s: S, a: seq<Visit>, b: seq<Visit>)
    ensures Replay(cb, s, a + b) == Replay(cb, Replay(cb, s, a), b)
    decreases |a|
  {
    if a != [] {
      assert (a + b)[0] == a[0] && (a + b)[1..] == a[1..] + b;
      ReplayAppend(cb, cb(s, a[0].isDir, a[0].path).state, a[1..], b);
    } else {
      assert a + b == b;
    }
  }

  /** With a callback that does not throw on any entry, walking a directory runs the
      callback on exactly the pre-order visits, in order: every entry under a listable
      directory once, each directory before its contents. A nested directory that cannot
      be listed is skipped. */
  lemma {:induction false} WalkDirReplaysVisits<S(!new)>(dir: string, listing: Listing, cb: (S, bool, string) -> Effect<S>, s: S)
    requires PassesOn(cb, ListingVisits(dir, listing))
    ensures WalkDir(dir, listing, cb, s).state == Replay(cb, s, ListingVisits(dir, listing))
    decreases listing
  {
    match listing
    case Unlistable =>
    case Listed(es) => WalkEntriesReplaysVisits(dir, es, cb, s);
  }

  lemma {:induction false} WalkEntriesReplaysVisits<S(!new)>(dir: string, es: seq<Entry>, cb: (S, bool, string) -> Effect<S>, s: S)
    requires PassesOn(cb, EntriesVisits(dir, es))
    ensures WalkEntries(dir, es, cb, s) == Effect(Replay(cb, s, EntriesVisits(dir, es)), Pass)
    decreases es
  {
    if es != [] {
      var e := es[0];
      var full := JoinPath(dir, e.name);
      var s1 := cb(s, e.Dir?, full).state;
      var inner := if e.Dir? then ListingVisits(full, e.listing) else [];
      var s2 := if e.Dir? then WalkDir(full, e.listing, cb, s1).state else s1;
      assert EntriesVisits(dir, es) == EntryVisits(dir, e) + EntriesVisits(dir, es[1..]);
      if e.Dir? {
        assert EntryVisits(dir, e) == [Visit(e.Dir?, full)] + inner;
        WalkDirReplaysVisits(full, e.listing, cb, s1);
      }
      assert s2 == Replay(cb, s1, inner);
      WalkEntriesReplaysVisits(dir, es[1..], cb, s2);
      ReplayAppend(cb, s, EntryVisits(dir, e), EntriesVisits(dir, es[1..]));
      assert EntryVisits(dir, e) == [Visit(e.Dir?, full)] + inner;
      assert Replay(cb, s, EntryVisits(dir, e)) == s2 by {
        assert ([Visit(e.Dir?, full)] + inner)[1..] == inner;
      }
    }
  }

  /** With a callback that does not throw on any entry, the walk fails exactly when the top
      directory cannot be listed: failures to list nested directories never reach the caller. */
  lemma {:induction false} WalkFailsOnlyAtTop<S(!new)>(dir: string, listing: Listing, cb: (S, bool, string) -> Effect<S>, s: S)
    requires PassesOn(cb, ListingVisits(dir, listing))
    ensures WalkDir(dir, listing, cb, s).outcome == Pass <==> listing.Listed?
    ensures listing.Unlistable? ==> WalkDir(dir, listing, cb, s) == Effect(s, Fail(ListFailed(dir)))
  {
    if listing.Listed? {
      WalkEntriesReplaysVisits(dir, listing.entries, cb, s);
    }
  }

  // ---------------------------------------------------------------------------
  // Reference traversal with a throwing callback: the visits the walk reaches.
  // ---------------------------------------------------------------------------

  /** The visits a walk reaches when the callback throws exactly on the visits `fails`
      picks out: pre-order as in `ListingVisits`, except that each directory's listing
      stops right after its first failing visit. That visit is kept, since the callback
      ran on it, but a failing directory is not descended into. A cut in a subdirectory
      ends only that subdirectory: the parent carries on with its next entry. */
  function ReachedListing(dir: string, listing: Listing, fails: Visit -> bool): seq<Visit>
    decreases listing
  {
    match listing
    case Unlistable => []
    case Listed(es) => ReachedEntries(dir, es, fails)
  }

  function ReachedEntries(dir: string, es: seq<Entry>, fails: Visit -> bool): seq<Visit>
    decreases es
  {
    if es == [] then []
    else
      var full := JoinPath(dir, es[0].name);
      var v := Visit(es[0].Dir?, full);
      if fails(v) then [v]
      else [v] + (if es[0].Dir? then ReachedListing(full, es[0].listing, fails) else []) + ReachedEntries(dir, es[1..], fails)
  }

  /** Whatever the callback throws on, the walk leaves the state of running the callback
      over the reached visits in order; a step that throws still leaves its own state. */
  lemma {:induction false} WalkDirReachesVisits<S(!new)>(dir: string, listing: Listing, cb: (S, bool, string) -> Effect<S>, s: S, fails: Visit -> bool)
    requires forall t, d, p :: cb(t, d, p).outcome.Fail? <==> fails(Visit(d, p))
    ensures WalkDir(dir, listing, cb, s).state == Replay(cb, s, ReachedListing(dir, listing, fails))
    decreases listing
  {
    match listing
    case Unlistable =>
    case Listed(es) => WalkEntriesReachesVisits(dir, es, cb, s, fails);
  }

  lemma {:induction false} WalkEntriesReachesVisits<S(!new)>(dir: string, es: seq<Entry>, cb: (S, bool, string) -> Effect<S>, s: S, fails: Visit -> bool)
    requires forall t, d, p :: cb(t, d, p).outcome.Fail? <==> fails(Visit(d, p))
    ensures WalkEntries(dir, es, cb, s).state == Replay(cb, s, ReachedEntries(dir, es, fails))
    decreases es
  {
    if es != [] {
      var e := es[0];
      var full := JoinPath(dir, e.name);
      var v := Visit(e.Dir?, full);
      var step := cb(s, e.Dir?, full);
      if fails(v) {
        assert ReachedEntries(dir, es, fails) == [v];
        assert Replay(cb, s, [v]) == Replay(cb, step.state, []) by {
          assert [v][1..] == [];
        }
      } else {
        var inner := if e.Dir? then ReachedListing(full, e.listing, fails) else [];
        var s2 := if e.Dir? then WalkDir(full, e.listing, cb, step.state).state else step.state;
        if e.Dir? {
          WalkDirReachesVisits(full, e.listing, cb, step.state, fails);
        }
        assert s2 == Replay(cb, step.state, inner);
        WalkEntriesReachesVisits(dir, es[1..], cb, s2, fails);
        var tail := ReachedEntries(dir, es[1..], fails);
        assert ReachedEntries(dir, es, fails) == [v] + inner + tail;
        ReplayAppend(cb, s, [v] + inner, tail);
        assert Replay(cb, s, [v] + inner) == s2 by {
          assert ([v] + inner)[0] == v && ([v] + inner)[1..] == inner;
        }
      }
    }
  }

  /** When no visit fails, the walk reaches every pre-order visit. */
  lemma {:induction false} ReachedAllWhenNoneFails(dir: string, listing: Listing, fails: Visit -> bool)
    requires forall v :: v in ListingVisits(dir, listing) ==> !fails(v)
    ensures ReachedListing(dir, listing, fails) == ListingVisits(dir, listing)
    decreases listing
  {
    match listing
    case Unlistable =>
    case Listed(es) => ReachedEntriesAll(dir, es, fails);
  }

  lemma {:induction false} ReachedEntriesAll(dir: string, es: seq<Entry>, fails: Visit -> bool)
    requires forall v :: v in EntriesVisits(dir, es) ==> !fails(v)
    ensures ReachedEntries(dir, es, fails) == EntriesVisits(dir, es)
    decreases es
  {
    if es != [] {
      var e := es[0];
      var full := JoinPath(dir, e.name);
      var v := Visit(e.Dir?, full);
      var inner := if e.Dir? then ListingVisits(full, e.listing) else [];
      var rest := EntriesVisits(dir, es[1..]);
      assert EntriesVisits(dir, es) == [v] + inner + rest;
      assert v in EntriesVisits(dir, es);
      if e.Dir? {
        forall u | u in inner ensures !fails(u) {
          assert u in EntriesVisits(dir, es);
        }
        ReachedAllWhenNoneFails(full, e.listing, fails);
      }
      forall u | u in rest ensures !fails(u) {
        assert u in EntriesVisits(dir, es);
      }
      ReachedEntriesAll(dir, es[1..], fails);
    }
  }

  /** A property of the state that every callback step keeps, also a step that throws,
      holds after the whole walk, whatever fails on the way. */
  lemma {:induction false} WalkDirPreserves<S(!new)>(dir: string, listing: Listing, cb: (S, bool, string) -> Effect<S>, s: S, inv: S -> bool)
    requires inv(s)
    requires forall t, d, p :: inv(t) ==> inv(cb(t, d, p).state)
    ensures inv(WalkDir(dir, listing, cb, s).state)
    decreases listing
  {
    match listing
    case Unlistable =>
    case Listed(es) => WalkEntriesPreserves(dir, es, cb, s, inv);
  }

  lemma {:induction false} WalkEntriesPreserves<S(!new)>(dir: string, es: seq<Entry>, cb: (S, bool, string) -> Effect<S>, s: S, inv: S -> bool)
    requires inv(s)
    requires forall t, d, p :: inv(t) ==> inv(cb(t, d, p).state)
    ensures inv(WalkEntries(dir, es, cb, s).state)
    decreases es
  {
    if es != [] {
      var e := es[0];
      var full := JoinPath(dir, e.name);
      var step := cb(s, e.Dir?, full);
      if step.outcome.Pass? {
        var s2 := if e.Dir? then WalkDir(full, e.listing, cb, step.state).state else step.state;
        if e.Dir? {
          WalkDirPreserves(full, e.listing, cb, step.state, inv);
        }
        WalkEntriesPreserves(dir, es[1..], cb, s2, inv);
      }
    }
  }

  /** Every entry reachable through listable directories is visited exactly as many times
      as there are such entries: one visit each. */
  lemma {:induction false} VisitCount(dir: string, listing: Listing)
    ensures |ListingVisits(dir, listing)| == ListingSize(listing)
    decreases listing
  {
    match listing
    case Unlistable =>
    case Listed(es) => EntriesVisitCount(dir, es);
  }

  lemma {:induction false} EntriesVisitCount(dir: string, es: seq<Entry>)
    ensures |EntriesVisits(dir, es)| == EntriesSize(es)
    decreases es
  {
    if es != [] {
      var full := JoinPath(dir, es[0].name);
      if es[0].Dir? {
        VisitCount(full, es[0].listing);
      }
      EntriesVisitCount(dir, es[1..]);
    }
  }

  /** Every path visited while walking `dir` lies under it: it starts with `dir + "/"`. */
  lemma {:induction false} VisitsUnderDir(dir: string, listing: Listing)
    ensures forall v :: v in ListingVisits(dir, listing) ==> JoinPath(dir, "") <= v.path
    decreases listing
  {
    match listing
    case Unlistable =>
    case Listed(es) => EntriesVisitsUnderDir(dir, es);
  }

  lemma {:induction false} EntriesVisitsUnderDir(dir: string, es: seq<Entry>)
    ensures forall v :: v in EntriesVisits(dir, es) ==> JoinPath(dir, "") <= v.path
    decreases es
  {
    if es != [] {
      var e := es[0];
      var full := JoinPath(dir, e.name);
      assert JoinPath(dir, "") <= full;
      if e.Dir? {
        VisitsUnderDir(full, e.listing);
        forall v | v in ListingVisits(full, e.listing) ensures JoinPath(dir, "") <= v.path {
          assert JoinPath(full, "") <= v.path;
        }
      }
      EntriesVisitsUnderDir(dir, es[1..]);
    }
  }

  /** Pre-order in listing order: the visits of a directory's entries are the blocks of
      the individual entries, back to back, so entry `k`'s block (itself, then its contents)
      sits after every block of entries `0..k-1` and before every block of entries after it. */
  lemma {:induction false} EntryBlock(dir: string, es: seq<Entry>, k: nat)
    requires k < |es|
    ensures EntriesVisits(dir, es)
         == EntriesVisits(dir, es[..k]) + EntryVisits(dir, es[k]) + EntriesVisits(dir, es[k + 1..])
    decreases k
  {
    if k == 0 {
      assert es[..0] == [];
    } else {
      EntryBlock(dir, es[1..], k - 1);
      assert es[1..][..k - 1] == es[1..k];
      assert es[1..][k - 1] == es[k];
      assert es[1..][k..] == es[k + 1..];
      assert es[..k][1..] == es[1..k];
      assert es[..k][0] == es[0];
    }
  }
}
